=== FILE: README.md ===
# vite-plugin-font-manifest, modelled in Dafny

The plugin runs after a Vite build. It finds the stylesheets among the
output files and reads their `@font-face` rules. It resolves every font url
to the original name of the output file it points at. It then writes two
things into Vite's `manifest.json`:

- `fontFace` on each font's entry: family, weight, style, display, format,
  MIME type, and the stylesheet it is defined in;
- `fonts` on each stylesheet's entry: the names of the fonts it declares.

The project models the plugin's logic in `index.js` as pure functions, and
proves what each step promises.

| file | module | models |
|---|---|---|
| `wrappers.dfy` | `Wrappers` | `Option` |
| `seqs.dfy` | `Seqs` | `Array.prototype.find`, `Object.fromEntries`, `filter`, `flat` |
| `objects.dfy` | `Objects` | objects as ordered entry lists; the `{ ...o, [k]: v }` reduce |
| `strings.dfy` | `Strings` | `toLowerCase`, `endsWith`, quote removal |
| `css_value.dfy` | `CssValue` | value tokens, `walk`, `splitArray`, `getFunctionValue`, `parseFontFaceSrcDeclaration` |
| `font_file.dfy` | `FontFile` | `path.extname` (POSIX), `getExtension`, `getMimeType` |
| `font_face.dfy` | `FontFace` | `getAllDeclarations`, `extractFontFaceInfo` |
| `bundle.dfy` | `Bundle` | `entryIsStylesheet`, `entryIsFontFile`, `getOriginalFilenameFromBundle`, `extractFontInfoFromStylesheet`, `extractFontInfoFromBundle` |
| `manifest.dfy` | `Manifest` | the manifest merge of `writeBundle`, and its early return |
| `relation.dfy` | `Relation` | `reverseRelation` |

How the model represents the source:

- An original file name is `Option<string>`. `None` stands for JavaScript's
  `null` or `undefined`.
- The bundle is the sequence `Object.values(bundle)`.
- The `info` object of `extractFontInfoFromBundle` is an ordered list of
  entries. A key that is assigned again keeps its first position and takes
  the new value, as object spread does.
- The `undefined` that `extractFontInfoFromStylesheet` returns after
  catching an error is `None`.
- `fonts` and `stylesheets` are maps, because only their keys and values
  matter to the merge.
- postcss and postcss-value-parser are not modelled. They enter as two
  function parameters, bundled in `Bundle.Parsers`:
  - one gives the `@font-face` rules of a stylesheet, each as its
    declarations in walk order, or nothing when the stylesheet does not
    parse;
  - one gives the top-level nodes of a CSS value.

  The model performs the value parser's `walk` itself, as `CssValue.Walk`.

## Model

| member | source | states |
|---|---|---|
| Seqs.FirstIndex | index.js:125 | `find`: the result is the first position whose element satisfies the predicate; there is none exactly when no element does |
| Seqs.FromEntriesKeys | index.js:70-76 | the keys of `Object.fromEntries` are exactly the keys of the pairs |
| Seqs.FromEntriesLastWins | index.js:70-72 | when a key repeats, it maps to the value of its last pair |
| Seqs.SelectMembers | index.js:60-61 | `filter` keeps exactly the elements that satisfy the predicate |
| Seqs.ConcatMembers | index.js:71 | `flat`: an element is in the flattened list exactly when it is in one of the groups |
| Seqs.ConcatPositions | index.js:71 | `flat` lays the groups end to end: its length is the groups' total, and each group is the slice starting where the groups before it end |
| Seqs.LaidEndToEndIsConcat | index.js:71 | that layout fixes the flattened list: any list laid out so is the flattened list, element for element and in order |
| Objects.Put | index.js:63-66 | spreading and assigning a key keeps every other entry in place; an existing key keeps its position and takes the new value; a new key goes last; keys stay distinct |
| Objects.Assign | index.js:62-68 | the reduce builds an object without repeated keys |
| Objects.AssignFromEntries | index.js:62-68 | the reduce maps every key to its last value, exactly as `Object.fromEntries` of the same pairs |
| Objects.AssignEntriesAreAssigned | index.js:62-68 | every entry of the reduced object is one of the assigned pairs |
| Objects.AssignDistinct | index.js:62-68 | without repeated keys, the reduce rebuilds the pairs unchanged and in order |
| Strings.Lower | index.js:152 | `toLowerCase` on ASCII: the same length, every upper-case letter lowered and every other character kept |
| Strings.EndsWithIff | index.js:83 | `endsWith`: the string is some prefix followed by the suffix, and only then |
| Strings.RemoveChars | index.js:103 | `replace(/['"]/g, '')`: the input with every quote filtered out and every other character kept, in order; so no quote is left, and a string without quotes is unchanged |
| CssValue.Walk | index.js:114 | the pre-order walk visits every top-level node and every child of a top-level function, starts with the first node, and yields at least as many nodes as there are at the top level |
| CssValue.WalkNode | index.js:114 | a single node is visited first, then, for a function, the walk of its children |
| CssValue.WalkAppend | index.js:114 | walking two sibling lists is walking the first and then the second, so the walk is pre-order |
| CssValue.WalkVisitsTopLevel | index.js:113-114 | when no top-level node is a function, the walk yields the top-level nodes unchanged |
| CssValue.SplitCount | index.js:170-182 | the reference split has one group more than there are dividers |
| CssValue.SplitJoin | index.js:170-182 | putting the dividers back between the reference groups restores the input |
| CssValue.SplitNoDivider | index.js:170-182 | no reference group holds a divider |
| CssValue.SplitConcat | index.js:170-182 | the reference groups laid end to end are the input with its dividers removed |
| CssValue.SplitFromGraft | index.js:171-180 | the `reduce` step from any accumulator continues that accumulator with the reference groups of the remaining input |
| CssValue.SplitArray | index.js:170-182 | `splitArray` equals the reference split, so: one group more than dividers, no divider in any group, the input without dividers when the groups are concatenated, and the input restored by the join |
| CssValue.SplitNodesByDividers | index.js:166-168 | splitting at `div` nodes gives one group more than there are `div` nodes, and no group holds a `div` node |
| CssValue.GetFunctionValue | index.js:124-127 | the value of the first word or string child of the first function node named exactly `fn`; absent exactly when that function is missing or has no such child |
| CssValue.ParseFontFaceSrcDeclaration | index.js:112-122 | one source per divider-separated group of the walked nodes, in order; each is `ResolveSource` of its group, the `{ url, format }` pair of the group's first `url(...)` and `format(...)` values |
| CssValue.WalkAddsNoDividers | index.js:112-122 | when no function argument holds a divider, the walk adds no divider; so a `src` list has one source per top-level divider (`,`, `/` or `:`), plus one |
| FontFile.Extname | index.js:152 | `path.extname` is empty, or a dot followed by characters that are neither a dot nor a slash |
| FontFile.ExtnameEmpty | index.js:151-153 | `path.extname` is empty exactly when the last segment has no dot, has its only dot first (`.woff`), or is `..`; then the extension is empty too |
| FontFile.DotNameHasNoExtension | index.js:152 | a name that is only a dot and a dot-free extension, alone or below a directory, has no `path.extname` |
| FontFile.ExtnameOfDottedName | index.js:152 | for `stem.ext` whose stem does not end in `/`, `path.extname` is `.ext` |
| FontFile.ExtnameLower | index.js:152 | lower-casing before or after `path.extname` gives the same result |
| FontFile.DropDot | index.js:152 | `replace(/^\./, '')`: a leading dot is removed and nothing else changes; without a leading dot the text is unchanged |
| FontFile.GetExtension | index.js:151-153 | the extension holds no dot, no slash and no upper-case ASCII letter |
| FontFile.GetExtensionOfExtname | index.js:151-153 | `getExtension` is the lower-cased `extname` without its leading dot |
| FontFile.MimeOf | index.js:156-163 | a table extension gets its MIME type; any other extension gets `unknown` |
| FontFile.UnknownIsNotAMime | index.js:156-163 | `unknown` is none of the table's MIME types |
| FontFile.GetMimeType | index.js:155-164 | the result is a table MIME type or `unknown`; it is `unknown` exactly when the extension is not in the table, and otherwise it is the extension's entry |
| FontFile.MimeIsCaseInsensitive | index.js:151-164 | file names that differ only in ASCII case have the same extension and MIME type |
| FontFile.MimeOfFontFile | index.js:151-164 | `stem.EXT`, for a table extension in any case, gets that extension and its MIME type |
| FontFile.MimeKeysAreAlphanumeric | index.js:156-162 | the table's extensions are lower-case letters and digits |
| FontFile.ExtensionKeepsQuery | index.js:151-153 | when the query after a font extension holds no `.` or `/`, it stays part of the extension |
| FontFile.MimeKeepsQuery | index.js:155-164 | when a `?` or `#` suffix after a font extension holds no `.` or `/`, the url gets `unknown` |
| FontFile.DottedQueryReplacesExtension | index.js:151-153 | a query that holds a dot, such as `?v=3.19`, replaces the font extension with what follows its last dot |
| FontFile.MimeOfIefixUrl | index.js:155-164 | `font.eot?#iefix` gets `unknown` |
| FontFace.GetAllDeclarations | index.js:135-141 | every declared property is a key, and no other; each maps to the value of its last declaration |
| FontFace.Or | index.js:102-106 | JavaScript `value \|\| fallback`: a present, non-empty value wins; an absent or empty one gives the fallback |
| FontFace.MakeDescriptor | index.js:100-109 | one source's descriptor: the group's url; a non-empty format hint, or else the url's extension; the family with its quotes removed, absent when undeclared; weight, style and display from a non-empty declaration, or else `normal`, `normal`, `auto`; the url's MIME type; `definedIn` from `data` |
| FontFace.ExtractFontFaceInfo | index.js:97-110 | one descriptor per `src` group, in order, with that group's url; `definedIn` is taken from `data` |
| FontFace.FontFaceFormatAndMime | index.js:100-107 | a non-empty `format(...)` wins; otherwise the format is the url's extension; the MIME type always comes from the url |
| FontFace.FontFaceSharedFields | index.js:103-108 | all descriptors of one rule share family, weight, style, display and `definedIn`; the family holds no quote |
| FontFace.OneDescriptorPerSource | index.js:97-122 | when no function argument holds a divider, a rule yields one descriptor per top-level divider (`,`, `/` or `:`) of its last `src` value, plus one |
| FontFace.DeclaredOrDefault | index.js:104-106 | `declarations[prop] \|\| fallback` is the last declaration's value when that is non-empty, and the fallback when the property is absent or empty |
| FontFace.TakesDeclaredField | index.js:104-106 | every descriptor takes the field from the last non-empty declaration, or else from its default |
| FontFace.FontFaceDefaults | index.js:104-106 | weight, style and display come from their last non-empty declaration, and default to `normal`, `normal` and `auto` |
| FontFace.FontFaceFamily | index.js:103 | the family is the last `font-family` value with every quote removed; it is absent when no `font-family` is declared |
| Bundle.EntryIsStylesheet | index.js:147-149 | an output file is a stylesheet exactly when it is an asset whose name ends in a dot and `css`, each letter in either case |
| Bundle.EntryIsFontFile | index.js:143-145 | an output file is a font file exactly when it is an asset whose lower-cased name ends in a dot and an extension of the MIME table |
| Bundle.FontExtensionsAreMimeKeys | index.js:143-164 | the font-file pattern and the MIME table list the same five extensions |
| Bundle.StylesheetIsNotFontFile | index.js:143-149 | no output file is both a stylesheet and a font file |
| Bundle.DottedSuffix | index.js:144 | a name `a.e` ends in `.k` exactly when `e == k`, for dot-free `e` and `k` |
| Bundle.FontPatternMatchesExtension | index.js:144 | a name `stem.x` with a dot-free `x` matches the font-file pattern exactly when `x` is a MIME-table extension |
| Bundle.FontFileIffKnownMime | index.js:143-164 | for an asset `stem.ext`, `entryIsFontFile` holds exactly when `getMimeType` knows the file |
| Bundle.HiddenFontFile | index.js:143-164 | a file named only by a dot and a recognised extension (`.woff`, `dir/.woff`) is a font file by the pattern, yet its MIME type is `unknown` |
| Bundle.OriginalFilename | index.js:81-85 | a found name is present, non-empty, and belongs to the first output file whose name ends the url; a present, non-empty name of that first file is returned; no match gives `null` |
| Bundle.ExtractFontInfoFromStylesheet | index.js:87-95 | the result is present exactly when the stylesheet parses and none of its rules throws; then its descriptors are those of its `@font-face` rules laid end to end in rule order, duplicates kept, each defined in that stylesheet's original file |
| Bundle.Stylesheets | index.js:60-61 | the filtered output files are exactly the bundle's stylesheets |
| Bundle.CollectInfo | index.js:60-68 | `info` has no repeated stylesheet name |
| Bundle.WellFormedBundleIff | index.js:60-72 | no value of `info` is `undefined`, which the flattening and destructuring need, exactly when the last stylesheet of every name can be read |
| Bundle.InfoEntry | index.js:60-79 | each `info` entry comes from the last stylesheet with that name; its descriptors name that stylesheet in `definedIn`; `stylesheets` maps the name to its fonts' resolved names |
| Bundle.ExtractFontInfoFromBundle | index.js:57-79 | `stylesheets` has a key exactly for each original name of a stylesheet in the bundle |
| Bundle.StylesheetLists | index.js:60-76 | the last stylesheet with a name can be read, and that name lists the resolved names of its fonts, one per descriptor and in order |
| Bundle.FontIsListed | index.js:57-79 | every font is listed by the stylesheet its `definedIn` names |
| Bundle.ListedIsFont | index.js:57-79 | every name a stylesheet lists is a key of `fonts` |
| Bundle.FontsAreListed | index.js:57-79 | a name is a key of `fonts` exactly when some stylesheet lists it, and then its `definedIn` names a stylesheet that lists it |
| Bundle.FontsLastWins | index.js:70-72 | `fonts` gives each resolved name the face of the last descriptor, in `info` order, that resolves to it |
| Bundle.AllDescriptorsInBundleOrder | index.js:60-71 | when no two stylesheets share an original name, every stylesheet can be read, and the descriptors are taken stylesheet by stylesheet, in bundle order |
| Manifest.Patches | index.js:40 | `{ ...stylesheets, ...fonts }` has exactly the keys of both |
| Manifest.Spread | index.js:43 | `{ ...entry, ...data }` keeps an object and adds the patched property to its keys |
| Manifest.MergeStep | index.js:41-45 | one reduce step keeps every file name; it changes only a present object entry of the patch's name, setting the patched property and keeping every other |
| Manifest.MergeStepExtends | index.js:41-45 | one more reduce step for a new name extends the entry-by-entry merge by that name's patch |
| Manifest.UpdateManifest | index.js:40-46 | the reduce, taking the names in any order, ends with the entry-by-entry merge |
| Manifest.MergedEntries | index.js:40-46 | the merge keeps the manifest's keys; only object entries with a patch change; those get the patched property, and keep every other property |
| Manifest.FontsWinOverStylesheets | index.js:40-46 | an entry named by a font gets its `fontFace`, and its `fonts` property is left as it was; an entry named only by a stylesheet gets its `fonts`; any other entry is unchanged |
| Manifest.WriteBundle | index.js:24-46 | nothing is written exactly when no font was found; a written manifest keeps its keys |
| Manifest.WrittenFontsCarryTheirFace | index.js:26-46 | after a write, each font's object entry carries that font's `fontFace` |
| Relation.GatherPartners | index.js:187-191 | the reduce gathers, for each value, exactly its keys in pair order |
| Relation.PairPartners | index.js:186 | one key's pairs give that key once per occurrence of the value in its list |
| Relation.PairsPartners | index.js:185-186 | the flattened pairs give the reference key listing |
| Relation.KeysListingEmpty | index.js:184-192 | the reference listing is non-empty exactly when some list holds the value |
| Relation.ReverseRelation | index.js:184-192 | `reverseRelation` maps exactly the values that some list holds; each maps to the keys that list it, in entry order, once per listing |

## Left out

- Reading and writing `manifest.json` is left out, with `JSON.parse`, `JSON.stringify`, `path.resolve` and the manifest name from the build config (index.js:28-37, 49). These are I/O. `Manifest.WriteBundle` takes the parsed manifest and returns the one to write.
- The plugin object is left out (index.js:6-21): `configResolved`, the `info` kept between hooks, and the hooks themselves. The model calls the two steps directly.
- postcss and postcss-value-parser are foreign code. They are parameters (`Bundle.Parsers`), not models.
- The `try`/`catch` of `writeBundle` is left out (index.js:34-52). It catches failed I/O, and also the error the merge raises when `manifest.json` parses to `null` (index.js:42). The model takes the parsed manifest to be an object. A manifest that parses to a number, a boolean or a string passes through the merge unchanged and is written back; such a manifest is outside the model.
- An error that escapes `extractFontInfoFromBundle` is left out: the model requires what keeps the source from throwing there.
  - `extractFontInfoFromStylesheet` catches its errors and gives `undefined` (index.js:88-94). This is modelled: `Bundle.ExtractFontInfoFromStylesheet` gives `None` when the stylesheet does not parse or a rule is not `FontFace.WellFormedRule`.
  - A rule throws when it has no `src` declaration, since `valueParser(undefined)` throws. It also throws when a `src` group holds no `url(...)`, since `getMimeType(undefined)` reaches `path.extname`, which throws.
  - An `undefined` left in `info` survives `.flat()`, and destructuring it throws. `Bundle.WellFormedBundle` requires that no value of `info` is `undefined`. By `Bundle.WellFormedBundleIff`, that holds exactly when the last stylesheet of every name can be read; earlier stylesheets with the same name may fail.
- Case folding is ASCII only. This covers `toLowerCase` and the regular expressions' `i` flag. Other Unicode letters are left out.
- `path.extname` is modelled with POSIX separators only.
- Object keys are not stringified. A `null` or `undefined` original name is `None`.
  - `None` never matches a manifest key. The source would match a manifest key `"null"` or `"undefined"`.
  - Integer-like keys, which JavaScript orders first, are not given that order.
- Keys inherited from `Object.prototype` are left out. The model's objects have only their own keys.
  - A file extension `constructor` or `__proto__` makes `mimes[...]` a truthy non-string, where the model gives `unknown` (index.js:163).
  - A file name such as `toString` or `constructor` that is missing from the manifest is still truthy through the prototype (index.js:42-43). The source then adds it as a new key, so "a written manifest keeps its keys" (`Manifest.WriteBundle`) does not hold for such names.
  - A declaration whose property is `__proto__` is dropped by the assignment in `getAllDeclarations` (index.js:138); the model keeps it.
- A truthy manifest entry that is not an object is left out. Spreading a string, number or array adds indexed properties; every entry of Vite's manifest is an object.
- `extractFontFaceInfo`'s `data` is `{ definedIn }` or nothing, its only uses. Other data that could shadow descriptor fields is left out.
- `console.warn` is left out.
- FontFile.ExtensionKeepsQuery: covers only queries without `.` or `/`. A query with a dot, such as a version `?v=3.19`, replaces the extension with what follows its last dot (`FontFile.DottedQueryReplacesExtension`): `inter.woff2?v=3.19` gets extension `19`, which the MIME table lacks.
- FontFile.MimeKeepsQuery: covers only suffixes without `.` or `/`. With a dot the suffix decides the MIME type: `a.eot?x.woff` gets `font/woff` (`FontFile.MimeOfFontFile` with stem `a.eot?x`).
- Bundle.FontsLastWins: stated in `info` order. It is stated in bundle order only when no two stylesheets share a name, via `Bundle.AllDescriptorsInBundleOrder`.
- Bundle.FontFileIffKnownMime: holds only for names with a non-empty stem and extension. For a bare `.woff` or `dir/.woff`, the pattern matches but `path.extname` is empty (`FontFile.ExtnameEmpty`, `FontFile.DotNameHasNoExtension`, `Bundle.HiddenFontFile`).
- FontFace.OneDescriptorPerSource: counts top-level dividers (`,`, `/` or `:`) only when no function argument holds a divider. `FontFace.ExtractFontFaceInfo` gives the general count over the walked nodes.
- CssValue.WalkAddsNoDividers: the same restriction as `FontFace.OneDescriptorPerSource`.

## Behaviour worth knowing

- A `@font-face` rule without `src` throws, and so does a `src` group without `url(...)`. The stylesheet's `catch` then gives `undefined` for the whole stylesheet, and none of its rules yields a descriptor.
- `font-family` loses every quote character, wherever it stands in the value.
- `definedIn` is the one-element list `[originalFileName]` of the stylesheet whose rule produced the descriptor. When several stylesheets produce the same font, the last descriptor wins, and `definedIn` names only its stylesheet.

=== FILE: bundle.dfy ===
/**
 * `extractFontInfoFromBundle` and its helpers: find the stylesheets among
 * the output files, read their `@font-face` rules, and cross-reference every
 * font url with the output file it names.
 */
module Bundle {
  import opened Wrappers
  import opened Seqs
  import opened Strings
  import opened Objects
  import opened FontFile
  import opened FontFace

  /** Whether rollup emitted an asset or a JavaScript chunk. */
  datatype Kind = Asset | Chunk

  /** One output file: `type`, `fileName`, `originalFileName` and the asset's `source` text. */
  datatype OutputFile = OutputFile(kind: Kind, fileName: string, originalFileName: Name, source: string)

  /** `Object.values(bundle)`, in the bundle's order. */
  type OutputBundle = seq<OutputFile>

  /** The extensions `entryIsFontFile` recognises. */
  const FontExtensions: seq<string> := ["woff2", "woff", "ttf", "otf", "eot"]

  /**
   * `entryIsStylesheet`: an asset whose non-empty name, lower-cased, ends in
   * `.css`. That is: a dot, then `c`, `s`, `s`, each in either case.
   */
  function EntryIsStylesheet(e: OutputFile): (b: bool)
    ensures b <==> && e.kind == Asset && |e.fileName| >= 4
                   && e.fileName[|e.fileName| - 4] == '.'
                   && e.fileName[|e.fileName| - 3] in "cC"
                   && e.fileName[|e.fileName| - 2] in "sS"
                   && e.fileName[|e.fileName| - 1] in "sS"
  {
    e.kind == Asset && e.fileName != "" && EndsWith(Lower(e.fileName), ".css")
  }

  /**
   * `entryIsFontFile`: an asset whose non-empty name, lower-cased, ends in a
   * dot and one of the pattern's extensions; these are exactly the
   * extensions of the MIME table.
   */
  function EntryIsFontFile(e: OutputFile): (b: bool)
    ensures b <==> e.kind == Asset && exists k :: k in Mimes && EndsWith(Lower(e.fileName), "." + k)
  {
    FontExtensionsAreMimeKeys();
    e.kind == Asset && e.fileName != "" &&
    exists j :: 0 <= j < |FontExtensions| && EndsWith(Lower(e.fileName), "." + FontExtensions[j])
  }

  /** The font-file pattern and the MIME table list the same extensions. */
  lemma FontExtensionsAreMimeKeys()
    ensures forall j :: 0 <= j < |FontExtensions| ==> FontExtensions[j] in Mimes
    ensures forall k :: k in Mimes ==> exists j :: 0 <= j < |FontExtensions| && FontExtensions[j] == k
  {
    assert FontExtensions[0] == "woff2" && FontExtensions[1] == "woff" && FontExtensions[2] == "ttf";
    assert FontExtensions[3] == "otf" && FontExtensions[4] == "eot";
  }

  /** No output file is both a stylesheet and a font file. */
  lemma StylesheetIsNotFontFile(e: OutputFile)
    ensures !(EntryIsStylesheet(e) && EntryIsFontFile(e))
  {
    if EntryIsStylesheet(e) {
      var name := Lower(e.fileName);
      assert name[|name| - 1] == 's' by {
        assert name[|name| - 4..] == ".css";
      }
      forall j | 0 <= j < |FontExtensions|
        ensures !EndsWith(name, "." + FontExtensions[j])
      {
        var x := "." + FontExtensions[j];
        assert x[|x| - 1] != 's';
      }
    }
  }

  /** `a + "." + e` ends in `"." + k` exactly when `e == k`, when neither `e` nor `k` holds a dot. */
  lemma DottedSuffix(a: string, e: string, k: string)
    requires forall i :: 0 <= i < |e| ==> e[i] != '.'
    requires forall i :: 0 <= i < |k| ==> k[i] != '.'
    ensures EndsWith(a + "." + e, "." + k) <==> e == k
  {
    var s := a + "." + e;
    var x := "." + k;
    if |e| > |k| {
      assert s[|s| - |x|..][0] != x[0];
    } else if |e| < |k| && |x| <= |s| {
      assert s[|s| - |x|..][|k| - |e|] == s[|a|] == '.';
      assert x[|k| - |e|] == k[|k| - |e| - 1] != '.';
    } else if |e| == |k| {
      assert s == a + ("." + e);
      assert s[|s| - |x|..] == "." + e;
      if "." + e == x {
        assert e == ("." + e)[1..] == x[1..] == k;
      }
    }
  }

  /** A name `stem.x` with a dot-free `x` matches the font-file pattern exactly when `x` is in the MIME table. */
  lemma FontPatternMatchesExtension(name: string, stem: string, x: string)
    requires name == stem + "." + x
    requires forall i :: 0 <= i < |x| ==> x[i] != '.'
    ensures (exists j :: 0 <= j < |FontExtensions| && EndsWith(name, "." + FontExtensions[j])) <==> x in Mimes
  {
    FontExtensionsAreMimeKeys();
    forall j | 0 <= j < |FontExtensions|
      ensures EndsWith(name, "." + FontExtensions[j]) <==> x == FontExtensions[j]
    {
      var k := FontExtensions[j];
      forall i | 0 <= i < |k| ensures k[i] != '.' {
        MimeKeysAreAlphanumeric(k, i);
      }
      DottedSuffix(stem, x, k);
    }
  }

  /**
   * For a file name `stem.ext` whose extension is not empty, the font-file
   * pattern matches exactly when the MIME table knows the extension.
   */
  lemma FontFileIffKnownMime(e: OutputFile, stem: string, ext: string)
    requires e.kind == Asset
    requires e.fileName == stem + "." + ext
    requires stem != "" && stem[|stem| - 1] != '/'
    requires ext != "" && NoSeparator(ext)
    ensures EntryIsFontFile(e) <==> GetMimeType(e.fileName) != Unknown
  {
    var name, lowerExt := Lower(e.fileName), Lower(ext);
    LowerDotted(stem, ext);
    ExtnameOfDottedName(stem, ext);
    GetExtensionOfExtname(e.fileName, ext);
    assert GetMimeType(e.fileName) != Unknown <==> lowerExt in Mimes;
    forall i | 0 <= i < |lowerExt| ensures lowerExt[i] != '.' {
      LowerKeepsPunctuation(ext[i], '.');
    }
    FontPatternMatchesExtension(name, Lower(stem), lowerExt);
    assert e.fileName != "";
  }

  /**
   * A file named only by a dot and a recognised extension, such as `.woff`
   * or `dir/.woff`, matches the font-file pattern, yet `path.extname` finds
   * no extension in it and its MIME type is `unknown`.
   */
  lemma HiddenFontFile(dir: string, k: string)
    requires dir == "" || dir[|dir| - 1] == '/'
    requires k in Mimes
    ensures EntryIsFontFile(OutputFile(Asset, dir + "." + k, None, ""))
    ensures GetMimeType(dir + "." + k) == Unknown
  {
    HiddenFontFileMatches(dir, k);
    HiddenFontFileExtname(dir, k);
  }

  lemma HiddenFontFileMatches(dir: string, k: string)
    requires k in Mimes
    ensures EntryIsFontFile(OutputFile(Asset, dir + "." + k, None, ""))
  {
    forall i | 0 <= i < |k| ensures !('A' <= k[i] <= 'Z') {
      MimeKeysAreAlphanumeric(k, i);
    }
    LowerOfNoUpperCase(k);
    LowerDotted(dir, k);
    var lower := Lower(dir + "." + k);
    assert lower == Lower(dir) + ("." + k);
    assert EndsWith(lower, "." + k);
  }

  lemma HiddenFontFileExtname(dir: string, k: string)
    requires dir == "" || dir[|dir| - 1] == '/'
    requires k in Mimes
    ensures GetMimeType(dir + "." + k) == Unknown
  {
    forall j | 0 <= j < |k| ensures k[j] != '.' && k[j] != '/' {
      MimeKeysAreAlphanumeric(k, j);
    }
    DotNameHasNoExtension(dir, k);
    ExtnameEmpty(dir + "." + k);
  }

  // ---------------------------------------------------------------------------
  // getOriginalFilenameFromBundle

  /** The output file has a name and `url` ends with it. */
  predicate Serves(e: OutputFile, url: string) {
    e.fileName != "" && EndsWith(url, e.fileName)
  }

  /** `i` is the first output file that serves `url`. */
  predicate IsFirstServing(bundle: OutputBundle, url: string, i: int) {
    0 <= i < |bundle| && Serves(bundle[i], url) && forall j :: 0 <= j < i ==> !Serves(bundle[j], url)
  }

  /** An original file name that JavaScript treats as true: present and not empty. */
  predicate Truthy(n: Name) {
    n.Some? && n.value != ""
  }

  /**
   * `getOriginalFilenameFromBundle`: the original file name of the first
   * output file whose name ends the url, or `null` when there is none or its
   * original name is missing or empty. Later matches are never consulted.
   */
  function OriginalFilename(bundle: OutputBundle, url: string): (r: Name)
    ensures r.Some? ==> Truthy(r) && exists i :: IsFirstServing(bundle, url, i) && bundle[i].originalFileName == r
    ensures forall i :: IsFirstServing(bundle, url, i) && Truthy(bundle[i].originalFileName) ==> r == bundle[i].originalFileName
    ensures (forall i :: 0 <= i < |bundle| ==> !Serves(bundle[i], url)) ==> r == None
  {
    match FirstIndex(bundle, (e: OutputFile) => Serves(e, url))
    case None => None
    case Some(i) =>
      assert IsFirstServing(bundle, url, i);
      var n := bundle[i].originalFileName;
      if Truthy(n) then n else None
  }

  // ---------------------------------------------------------------------------
  // extractFontInfoFromStylesheet

  /**
   * The two foreign parsers. `fontFaceRules` stands for postcss: the
   * `@font-face` rules of a stylesheet, each as its declarations in order, or
   * `None` when the stylesheet does not parse. `values` stands for
   * postcss-value-parser.
   */
  datatype Parsers = Parsers(fontFaceRules: string -> Option<seq<Rule>>, values: ValueParser)

  /** The stylesheet parses, and every `@font-face` rule of it can be read without throwing. */
  predicate WellFormedSheet(asset: OutputFile, parsers: Parsers) {
    var rules := parsers.fontFaceRules(asset.source);
    rules.Some? && forall i :: 0 <= i < |rules.value| ==> WellFormedRule(rules.value[i], parsers.values)
  }

  /** The descriptors of every rule, all with the same `definedIn`: one group per rule, in rule order. */
  function RuleDescriptors(rules: seq<Rule>, parse: ValueParser, definedIn: Option<seq<Name>>): (groups: seq<seq<Descriptor>>)
    requires forall i :: 0 <= i < |rules| ==> WellFormedRule(rules[i], parse)
    ensures |groups| == |rules|
    ensures forall i :: 0 <= i < |rules| ==> groups[i] == ExtractFontFaceInfo(rules[i], parse, definedIn)
  {
    seq(|rules|, i requires 0 <= i < |rules| => ExtractFontFaceInfo(rules[i], parse, definedIn))
  }

  /** The rules' descriptors laid end to end are exactly those of some rule, and carry the given `definedIn`. */
  lemma RuleDescriptorsMembers(rules: seq<Rule>, parse: ValueParser, definedIn: Option<seq<Name>>)
    requires forall i :: 0 <= i < |rules| ==> WellFormedRule(rules[i], parse)
    ensures forall d :: d in Concat(RuleDescriptors(rules, parse, definedIn)) <==>
      exists i :: 0 <= i < |rules| && d in ExtractFontFaceInfo(rules[i], parse, definedIn)
    ensures forall d :: d in Concat(RuleDescriptors(rules, parse, definedIn)) ==> d.face.definedIn == definedIn
  {
    var groups := RuleDescriptors(rules, parse, definedIn);
    forall d
      ensures d in Concat(groups) <==> exists i :: 0 <= i < |rules| && d in ExtractFontFaceInfo(rules[i], parse, definedIn)
      ensures d in Concat(groups) ==> d.face.definedIn == definedIn
    {
      ConcatMembers(groups, d);
      if d in Concat(groups) {
        var i :| 0 <= i < |groups| && d in groups[i];
        assert groups[i] == ExtractFontFaceInfo(rules[i], parse, definedIn);
        var k :| 0 <= k < |groups[i]| && groups[i][k] == d;
      } else {
        forall i | 0 <= i < |rules|
          ensures d !in ExtractFontFaceInfo(rules[i], parse, definedIn)
        {
          assert groups[i] == ExtractFontFaceInfo(rules[i], parse, definedIn);
        }
      }
    }
  }

  /**
   * `extractFontInfoFromStylesheet`: the descriptors of the stylesheet's
   * `@font-face` rules in document order, each saying it is defined in this
   * stylesheet's original file. When the stylesheet does not parse, or one
   * of its rules throws, the `catch` leaves `undefined`: `None` here.
   */
  function ExtractFontInfoFromStylesheet(asset: OutputFile, parsers: Parsers): (r: Option<seq<Descriptor>>)
    ensures r.Some? <==> WellFormedSheet(asset, parsers)
    ensures r.Some? ==> var rules := parsers.fontFaceRules(asset.source).value;
      forall d :: d in r.value <==>
        exists i :: 0 <= i < |rules| && d in ExtractFontFaceInfo(rules[i], parsers.values, Some([asset.originalFileName]))
    ensures r.Some? ==> forall d :: d in r.value ==> d.face.definedIn == Some([asset.originalFileName])
    ensures r.Some? ==>
      LaidEndToEnd(r.value, RuleDescriptors(parsers.fontFaceRules(asset.source).value, parsers.values, Some([asset.originalFileName])))
  {
    if WellFormedSheet(asset, parsers) then
      var rules := parsers.fontFaceRules(asset.source).value;
      var definedIn := Some([asset.originalFileName]);
      RuleDescriptorsMembers(rules, parsers.values, definedIn);
      ConcatPositions(RuleDescriptors(rules, parsers.values, definedIn));
      Some(Concat(RuleDescriptors(rules, parsers.values, definedIn)))
    else
      None
  }

  // ---------------------------------------------------------------------------
  // extractFontInfoFromBundle

  /** The output files that are stylesheets, in bundle order. */
  function Stylesheets(bundle: OutputBundle): (sheets: seq<OutputFile>)
    ensures |sheets| <= |bundle|
    ensures forall e :: e in sheets <==> e in bundle && EntryIsStylesheet(e)
  {
    forall e ensures e in Select(bundle, EntryIsStylesheet, true) <==> e in bundle && EntryIsStylesheet(e) {
      SelectMembers(bundle, EntryIsStylesheet, true, e);
    }
    Select(bundle, EntryIsStylesheet, true)
  }

  /** The pairs the reduce assigns: each stylesheet's original name with what reading it gives. */
  function SheetEntries(sheets: seq<OutputFile>, parsers: Parsers): (entries: seq<(Name, Option<seq<Descriptor>>)>)
    ensures |entries| == |sheets|
    ensures forall i :: 0 <= i < |sheets| ==> entries[i].0 == sheets[i].originalFileName
  {
    seq(|sheets|, i requires 0 <= i < |sheets| =>
      (sheets[i].originalFileName, ExtractFontInfoFromStylesheet(sheets[i], parsers)))
  }

  /** The `info` object: stylesheet names with their descriptors, `None` standing for `undefined`. */
  type Info = seq<(Name, Option<seq<Descriptor>>)>

  /**
   * `info`: the stylesheets' descriptors keyed by original file name, as the
   * reduce builds the object: a name seen again keeps its first position and
   * takes the later stylesheet's descriptors.
   */
  function CollectInfo(bundle: OutputBundle, parsers: Parsers): (info: Info)
    ensures DistinctKeys(info)
  {
    Assign(SheetEntries(Stylesheets(bundle), parsers))
  }

  /** No value of `info` is `undefined`. */
  predicate Complete(info: Info) {
    forall p :: 0 <= p < |info| ==> info[p].1.Some?
  }

  /**
   * What `extractFontInfoFromBundle` needs in order not to throw. An
   * `undefined` value of `info` survives the flattening, and taking the url
   * out of it throws; so every value must be present. A stylesheet that
   * cannot be read does no harm when a later one has the same name.
   */
  predicate WellFormedBundle(bundle: OutputBundle, parsers: Parsers) {
    Complete(CollectInfo(bundle, parsers))
  }

  /** Among the bundle's stylesheets, `j` is the last one with its original name. */
  predicate IsLastNamed(sheets: seq<OutputFile>, j: int) {
    0 <= j < |sheets| && forall l :: j < l < |sheets| ==> sheets[l].originalFileName != sheets[j].originalFileName
  }

  /** The last stylesheet with a given name has an `info` entry, holding what reading that stylesheet gives. */
  lemma LastNamedEntry(bundle: OutputBundle, parsers: Parsers, j: nat) returns (p: nat)
    requires IsLastNamed(Stylesheets(bundle), j)
    ensures var info := CollectInfo(bundle, parsers);
      var sheet := Stylesheets(bundle)[j];
      p < |info| && info[p] == (sheet.originalFileName, ExtractFontInfoFromStylesheet(sheet, parsers))
  {
    var info := CollectInfo(bundle, parsers);
    var sheets := Stylesheets(bundle);
    var entries := SheetEntries(sheets, parsers);
    var n := sheets[j].originalFileName;
    assert IsLastKey(entries, j);
    FromEntriesLastWins(entries, j);
    AssignFromEntries(entries);
    FromEntriesKeys(info, n);
    p :| 0 <= p < |info| && info[p].0 == n;
    DistinctLookup(info, p);
  }

  /** Every `info` entry holds what reading the last stylesheet with its name gives. */
  lemma EntryOfLastNamed(bundle: OutputBundle, parsers: Parsers, p: nat) returns (j: nat)
    requires p < |CollectInfo(bundle, parsers)|
    ensures IsLastNamed(Stylesheets(bundle), j)
    ensures var sheet := Stylesheets(bundle)[j];
      CollectInfo(bundle, parsers)[p] == (sheet.originalFileName, ExtractFontInfoFromStylesheet(sheet, parsers))
  {
    var info := CollectInfo(bundle, parsers);
    var sheets := Stylesheets(bundle);
    var entries := SheetEntries(sheets, parsers);
    var n := info[p].0;
    DistinctLookup(info, p);
    AssignFromEntries(entries);
    FromEntriesKeys(entries, n);
    j := LastKeyExists(entries, n);
    FromEntriesLastWins(entries, j);
    assert IsLastNamed(sheets, j) by {
      forall l | j < l < |sheets| ensures sheets[l].originalFileName != sheets[j].originalFileName {
        assert entries[l].0 != entries[j].0;
      }
    }
  }

  /**
   * The bundle can be read without throwing exactly when, for every name,
   * the last stylesheet with that name can be read.
   */
  lemma WellFormedBundleIff(bundle: OutputBundle, parsers: Parsers)
    ensures WellFormedBundle(bundle, parsers) <==>
      forall j :: IsLastNamed(Stylesheets(bundle), j) ==> WellFormedSheet(Stylesheets(bundle)[j], parsers)
  {
    var info := CollectInfo(bundle, parsers);
    var sheets := Stylesheets(bundle);
    if WellFormedBundle(bundle, parsers) {
      forall j | IsLastNamed(sheets, j) ensures WellFormedSheet(sheets[j], parsers) {
        var p := LastNamedEntry(bundle, parsers, j);
      }
    }
    if forall j :: IsLastNamed(sheets, j) ==> WellFormedSheet(sheets[j], parsers) {
      forall p | 0 <= p < |info| ensures info[p].1.Some? {
        var j := EntryOfLastNamed(bundle, parsers, p);
      }
    }
  }

  /** The values of a complete `info`, in order. */
  function Values(info: Info): (groups: seq<seq<Descriptor>>)
    requires Complete(info)
    ensures |groups| == |info| && forall i :: 0 <= i < |info| ==> groups[i] == info[i].1.value
  {
    seq(|info|, i requires 0 <= i < |info| && info[i].1.Some? => info[i].1.value)
  }

  /** All descriptors: the values of `info` laid end to end. */
  function AllDescriptors(bundle: OutputBundle, parsers: Parsers): seq<Descriptor>
    requires WellFormedBundle(bundle, parsers)
  {
    Concat(Values(CollectInfo(bundle, parsers)))
  }

  /** The resolved names of the descriptors' urls, in order. */
  function Names(bundle: OutputBundle, ds: seq<Descriptor>): (names: seq<Name>)
    ensures |names| == |ds|
    ensures forall k :: 0 <= k < |ds| ==> names[k] == OriginalFilename(bundle, ds[k].url)
  {
    seq(|ds|, k requires 0 <= k < |ds| => OriginalFilename(bundle, ds[k].url))
  }

  /** The pairs `fonts` is built from: each descriptor's resolved name with the descriptor minus its url. */
  function FontEntries(bundle: OutputBundle, ds: seq<Descriptor>): seq<(Name, Face)> {
    seq(|ds|, k requires 0 <= k < |ds| => (OriginalFilename(bundle, ds[k].url), ds[k].face))
  }

  /** The pairs `stylesheets` is built from: each stylesheet's name with its fonts' resolved names. */
  function StylesheetEntries(bundle: OutputBundle, info: Info): seq<(Name, seq<Name>)>
    requires Complete(info)
  {
    seq(|info|, i requires 0 <= i < |info| && info[i].1.Some? => (info[i].0, Names(bundle, info[i].1.value)))
  }

  /**
   * The result of `extractFontInfoFromBundle`: `fonts` maps a font file's
   * original name to its `fontFace`, `stylesheets` maps a stylesheet's
   * original name to the names of the fonts it declares.
   */
  datatype FontInfo = FontInfo(fonts: map<Name, Face>, stylesheets: map<Name, seq<Name>>)

  /** The keys of `stylesheets` are exactly the original names of the bundle's stylesheets. */
  lemma StylesheetKeys(bundle: OutputBundle, parsers: Parsers)
    requires WellFormedBundle(bundle, parsers)
    ensures forall n :: n in FromEntries(StylesheetEntries(bundle, CollectInfo(bundle, parsers))) <==>
      exists i :: 0 <= i < |bundle| && EntryIsStylesheet(bundle[i]) && bundle[i].originalFileName == n
  {
    var info := CollectInfo(bundle, parsers);
    var sheets := Stylesheets(bundle);
    var entries := SheetEntries(sheets, parsers);
    var se := StylesheetEntries(bundle, info);
    AssignFromEntries(entries);
    forall n
      ensures n in FromEntries(se) <==> exists i :: 0 <= i < |bundle| && EntryIsStylesheet(bundle[i]) && bundle[i].originalFileName == n
    {
      FromEntriesKeys(se, n);
      FromEntriesKeys(info, n);
      FromEntriesKeys(entries, n);
      assert (exists p :: 0 <= p < |se| && se[p].0 == n) <==> (exists p :: 0 <= p < |info| && info[p].0 == n) by {
        if exists p :: 0 <= p < |info| && info[p].0 == n {
          var p :| 0 <= p < |info| && info[p].0 == n;
          assert se[p].0 == n;
        }
      }
      if exists j :: 0 <= j < |entries| && entries[j].0 == n {
        var j :| 0 <= j < |entries| && entries[j].0 == n;
        SelectMembers(bundle, EntryIsStylesheet, true, sheets[j]);
        var i := IndexOf(bundle, sheets[j]);
      }
      if exists i :: 0 <= i < |bundle| && EntryIsStylesheet(bundle[i]) && bundle[i].originalFileName == n {
        var i :| 0 <= i < |bundle| && EntryIsStylesheet(bundle[i]) && bundle[i].originalFileName == n;
        SelectMembers(bundle, EntryIsStylesheet, true, bundle[i]);
        var j := IndexOf(sheets, bundle[i]);
        assert entries[j].0 == n;
      }
    }
  }

  /**
   * `extractFontInfoFromBundle`. Its `stylesheets` has a key for every
   * stylesheet of the bundle, and for nothing else.
   */
  function ExtractFontInfoFromBundle(bundle: OutputBundle, parsers: Parsers): (result: FontInfo)
    requires WellFormedBundle(bundle, parsers)
    ensures forall n :: n in result.stylesheets <==>
      exists i :: 0 <= i < |bundle| && EntryIsStylesheet(bundle[i]) && bundle[i].originalFileName == n
  {
    StylesheetKeys(bundle, parsers);
    FontInfo(
      FromEntries(FontEntries(bundle, AllDescriptors(bundle, parsers))),
      FromEntries(StylesheetEntries(bundle, CollectInfo(bundle, parsers))))
  }

  // ---------------------------------------------------------------------------
  // What the collected information says

  /**
   * Facts about one entry of `info`: it comes from the last stylesheet with
   * its name; its descriptors name that stylesheet in `definedIn`; and
   * `stylesheets` lists their resolved names under it.
   */
  lemma InfoEntry(bundle: OutputBundle, parsers: Parsers, p: nat)
    requires WellFormedBundle(bundle, parsers)
    requires p < |CollectInfo(bundle, parsers)|
    ensures var info := CollectInfo(bundle, parsers);
      exists j :: IsLastNamed(Stylesheets(bundle), j) && Stylesheets(bundle)[j].originalFileName == info[p].0
    ensures var info := CollectInfo(bundle, parsers);
      forall d :: d in info[p].1.value ==> d.face.definedIn == Some([info[p].0])
    ensures var info := CollectInfo(bundle, parsers);
      var stylesheets := ExtractFontInfoFromBundle(bundle, parsers).stylesheets;
      info[p].0 in stylesheets && stylesheets[info[p].0] == Names(bundle, info[p].1.value)
  {
    var info := CollectInfo(bundle, parsers);
    var j := EntryOfLastNamed(bundle, parsers, p);
    var se := StylesheetEntries(bundle, info);
    assert DistinctKeys(se) by {
      forall a, b | 0 <= a < b < |se| ensures se[a].0 != se[b].0 {
        assert se[a].0 == info[a].0 && se[b].0 == info[b].0;
      }
    }
    DistinctLookup(se, p);
  }

  /**
   * The last stylesheet with a name can be read, and that name lists the
   * resolved names of its fonts, one per descriptor and in order.
   */
  lemma StylesheetLists(bundle: OutputBundle, parsers: Parsers, j: nat)
    requires WellFormedBundle(bundle, parsers)
    requires IsLastNamed(Stylesheets(bundle), j)
    ensures ExtractFontInfoFromStylesheet(Stylesheets(bundle)[j], parsers).Some?
    ensures var sheet := Stylesheets(bundle)[j];
      var stylesheets := ExtractFontInfoFromBundle(bundle, parsers).stylesheets;
      sheet.originalFileName in stylesheets &&
      stylesheets[sheet.originalFileName] == Names(bundle, ExtractFontInfoFromStylesheet(sheet, parsers).value)
  {
    var p := LastNamedEntry(bundle, parsers, j);
    InfoEntry(bundle, parsers, p);
  }

  /** Every font is listed by the stylesheet it says it is defined in. */
  lemma FontIsListed(bundle: OutputBundle, parsers: Parsers, m: Name)
    requires WellFormedBundle(bundle, parsers)
    requires m in ExtractFontInfoFromBundle(bundle, parsers).fonts
    ensures var result := ExtractFontInfoFromBundle(bundle, parsers);
      exists n :: n in result.stylesheets && m in result.stylesheets[n] && result.fonts[m].definedIn == Some([n])
  {
    var result := ExtractFontInfoFromBundle(bundle, parsers);
    var info := CollectInfo(bundle, parsers);
    var groups := Values(info);
    var all := AllDescriptors(bundle, parsers);
    var fe := FontEntries(bundle, all);
    FromEntriesKeys(fe, m);
    var q := LastKeyExists(fe, m);
    FromEntriesLastWins(fe, q);
    assert result.fonts[m] == all[q].face;
    ConcatMembers(groups, all[q]);
    var p :| 0 <= p < |groups| && all[q] in groups[p];
    InfoEntry(bundle, parsers, p);
    var k := IndexOf(info[p].1.value, all[q]);
    assert result.stylesheets[info[p].0][k] == m;
  }

  /** Every name a stylesheet lists is a key of `fonts`. */
  lemma ListedIsFont(bundle: OutputBundle, parsers: Parsers, n: Name, m: Name)
    requires WellFormedBundle(bundle, parsers)
    requires var result := ExtractFontInfoFromBundle(bundle, parsers);
      n in result.stylesheets && m in result.stylesheets[n]
    ensures m in ExtractFontInfoFromBundle(bundle, parsers).fonts
  {
    var result := ExtractFontInfoFromBundle(bundle, parsers);
    var info := CollectInfo(bundle, parsers);
    var groups := Values(info);
    var all := AllDescriptors(bundle, parsers);
    var fe := FontEntries(bundle, all);
    var se := StylesheetEntries(bundle, info);
    FromEntriesKeys(se, n);
    var p :| 0 <= p < |se| && se[p].0 == n;
    InfoEntry(bundle, parsers, p);
    var k := IndexOf(Names(bundle, info[p].1.value), m);
    var d := info[p].1.value[k];
    assert d in groups[p];
    ConcatMembers(groups, d);
    var q := IndexOf(all, d);
    assert fe[q].0 == m;
    FromEntriesKeys(fe, m);
  }

  /**
   * The cross-reference is closed: a name is a key of `fonts` exactly when
   * some stylesheet lists it, and the stylesheet a font says it is defined
   * in is one that lists it.
   */
  lemma FontsAreListed(bundle: OutputBundle, parsers: Parsers, m: Name)
    requires WellFormedBundle(bundle, parsers)
    ensures var result := ExtractFontInfoFromBundle(bundle, parsers);
      m in result.fonts <==> exists n :: n in result.stylesheets && m in result.stylesheets[n]
    ensures var result := ExtractFontInfoFromBundle(bundle, parsers);
      m in result.fonts ==>
        exists n :: n in result.stylesheets && m in result.stylesheets[n] && result.fonts[m].definedIn == Some([n])
  {
    var result := ExtractFontInfoFromBundle(bundle, parsers);
    if m in result.fonts {
      FontIsListed(bundle, parsers, m);
    }
    if exists n :: n in result.stylesheets && m in result.stylesheets[n] {
      var n :| n in result.stylesheets && m in result.stylesheets[n];
      ListedIsFont(bundle, parsers, n, m);
    }
  }

  /** `fonts` gives each name the face of the last descriptor, in `info` order, that resolves to it. */
  lemma FontsLastWins(bundle: OutputBundle, parsers: Parsers, q: nat)
    requires WellFormedBundle(bundle, parsers)
    requires IsLastKey(FontEntries(bundle, AllDescriptors(bundle, parsers)), q)
    ensures var all := AllDescriptors(bundle, parsers);
      var fonts := ExtractFontInfoFromBundle(bundle, parsers).fonts;
      var m := OriginalFilename(bundle, all[q].url);
      m in fonts && fonts[m] == all[q].face
  {
    FromEntriesLastWins(FontEntries(bundle, AllDescriptors(bundle, parsers)), q);
  }

  /**
   * When no two stylesheets share an original name, every stylesheet can be
   * read, and the fonts are taken stylesheet by stylesheet in bundle order.
   */
  lemma AllDescriptorsInBundleOrder(bundle: OutputBundle, parsers: Parsers)
    requires WellFormedBundle(bundle, parsers)
    requires var sheets := Stylesheets(bundle);
      forall i, j :: 0 <= i < j < |sheets| ==> sheets[i].originalFileName != sheets[j].originalFileName
    ensures Complete(SheetEntries(Stylesheets(bundle), parsers))
    ensures AllDescriptors(bundle, parsers) == Concat(Values(SheetEntries(Stylesheets(bundle), parsers)))
  {
    var sheets := Stylesheets(bundle);
    var entries := SheetEntries(sheets, parsers);
    AssignDistinct(entries);
    assert CollectInfo(bundle, parsers) == entries;
  }
}

=== FILE: css_value.dfy ===
/**
 * The value side of a `src` descriptor: the tokens of a parsed CSS value,
 * the pre-order walk that flattens them, the split into groups at the
 * dividers (`,`, `/` and `:`) and the lookup of `url(...)` / `format(...)`
 * arguments (index.js, lines 112-127 and 166-182).
 */
module CssValue {
  import opened Wrappers
  import opened Seqs

  /** One node of a parsed CSS value, one constructor per node type of the value tokenizer. */
  datatype Token =
    | Func(name: string, children: seq<Token>)
    | Word(value: string)
    | Str(value: string)
    | Div(value: string)
    | Space(value: string)
    | Comment(value: string)
    | UnicodeRange(value: string)

  predicate IsDivider(t: Token) {
    t.Div?
  }

  /** The node types whose `value` can serve as a url or a format. */
  predicate IsValue(t: Token) {
    t.Word? || t.Str?
  }

  predicate IsFunctionNamed(t: Token, fn: string) {
    t.Func? && t.name == fn
  }

  /**
   * The order in which the tokenizer's `walk` visits the nodes: each node,
   * then (for a function) its children, then the following siblings.
   */
  function Walk(nodes: seq<Token>): (r: seq<Token>)
    ensures |r| >= |nodes|
    ensures nodes != [] ==> r[0] == nodes[0]
    ensures forall i :: 0 <= i < |nodes| ==> nodes[i] in r
    ensures forall i, c :: 0 <= i < |nodes| && nodes[i].Func? && c in nodes[i].children ==> c in r
    decreases nodes
  {
    if nodes == [] then []
    else
      var head := nodes[0];
      var nested := match head case Func(_, children) => Walk(children) case _ => [];
      var rest := Walk(nodes[1..]);
      assert forall i :: 1 <= i < |nodes| ==> nodes[i] == nodes[1..][i - 1];
      assert head.Func? ==> forall c :: c in head.children ==> c in nested;
      [head] + nested + rest
  }

  /** A single node is visited first, followed by the walk of its children when it is a function. */
  lemma WalkNode(t: Token)
    ensures t.Func? ==> Walk([t]) == [t] + Walk(t.children)
    ensures !t.Func? ==> Walk([t]) == [t]
  {
    assert [t][1..] == [];
  }

  /** Walking two sibling lists one after the other is walking their concatenation: the walk is pre-order. */
  lemma {:induction false} WalkAppend(a: seq<Token>, b: seq<Token>)
    ensures Walk(a + b) == Walk(a) + Walk(b)
    decreases |a|
  {
    if a == [] {
      assert a + b == b;
    } else {
      assert (a + b)[0] == a[0];
      assert (a + b)[1..] == a[1..] + b;
      WalkAppend(a[1..], b);
    }
  }

  /** Without function nodes there is nothing nested, and the walk is the top-level sequence itself. */
  lemma {:induction false} WalkVisitsTopLevel(nodes: seq<Token>)
    requires forall i :: 0 <= i < |nodes| ==> !nodes[i].Func?
    ensures Walk(nodes) == nodes
    decreases |nodes|
  {
    if nodes != [] {
      var head, rest := nodes[0], nodes[1..];
      assert !head.Func?;
      assert Walk(nodes) == [head] + Walk(rest);
      WalkVisitsTopLevel(rest);
      assert nodes == [head] + rest;
    }
  }

  // ---------------------------------------------------------------------------
  // splitArray

  /** The groups laid end to end with `dividers[k]` between group `k` and group `k + 1`. */
  function Join<T>(groups: seq<seq<T>>, dividers: seq<T>): seq<T>
    requires |groups| == |dividers| + 1
  {
    if |groups| == 1 then groups[0] else groups[0] + [dividers[0]] + Join(groups[1..], dividers[1..])
  }

  /**
   * Reference definition of splitting: the maximal runs of non-divider
   * elements between consecutive dividers (and before the first and after
   * the last one), read from the front.
   */
  function Split<T>(xs: seq<T>, isDivider: T -> bool): (groups: seq<seq<T>>)
    ensures groups != []
  {
    if xs == [] then [[]]
    else
      var r := Split(xs[1..], isDivider);
      if isDivider(xs[0]) then [[]] + r else [[xs[0]] + r[0]] + r[1..]
  }

  /** Prefixing the first group prefixes the joined sequence. */
  lemma JoinPrepend<T>(x: T, groups: seq<seq<T>>, dividers: seq<T>)
    requires |groups| == |dividers| + 1
    ensures Join([[x] + groups[0]] + groups[1..], dividers) == [x] + Join(groups, dividers)
  {
    var g := [[x] + groups[0]] + groups[1..];
    assert g[1..] == groups[1..];
    if |groups| > 1 {
      assert Join(g, dividers) == [x] + groups[0] + [dividers[0]] + Join(groups[1..], dividers[1..]);
    }
  }

  /** There is one group more than there are dividers. */
  lemma {:induction false} SplitCount<T>(xs: seq<T>, isDivider: T -> bool)
    ensures |Split(xs, isDivider)| == |Select(xs, isDivider, true)| + 1
    decreases |xs|
  {
    if xs != [] {
      SplitCount(xs[1..], isDivider);
    }
  }

  /** Putting the dividers back between the groups gives the input back. */
  lemma {:induction false} SplitJoin<T>(xs: seq<T>, isDivider: T -> bool)
    ensures |Split(xs, isDivider)| == |Select(xs, isDivider, true)| + 1
    ensures Join(Split(xs, isDivider), Select(xs, isDivider, true)) == xs
    decreases |xs|
  {
    SplitCount(xs, isDivider);
    if xs != [] {
      var x, rest := xs[0], xs[1..];
      var r := Split(rest, isDivider);
      var ds := Select(rest, isDivider, true);
      SplitJoin(rest, isDivider);
      assert [x] + rest == xs;
      if isDivider(x) {
        assert Split(xs, isDivider) == [[]] + r;
        assert Select(xs, isDivider, true) == [x] + ds;
        assert ([[]] + r)[1..] == r;
        assert Join([[]] + r, [x] + ds) == [] + [x] + Join(r, ds);
      } else {
        assert Split(xs, isDivider) == [[x] + r[0]] + r[1..];
        assert Select(xs, isDivider, true) == ds;
        JoinPrepend(x, r, ds);
      }
    }
  }

  /** No element of any group is a divider. */
  predicate NoDivider<T>(groups: seq<seq<T>>, isDivider: T -> bool) {
    forall g, i :: 0 <= g < |groups| && 0 <= i < |groups[g]| ==> !isDivider(groups[g][i])
  }

  /** No group holds a divider. */
  lemma {:induction false} SplitNoDivider<T>(xs: seq<T>, isDivider: T -> bool)
    ensures NoDivider(Split(xs, isDivider), isDivider)
    decreases |xs|
  {
    if xs != [] {
      SplitNoDivider(xs[1..], isDivider);
      var r := Split(xs[1..], isDivider);
      var groups := Split(xs, isDivider);
      forall g, i | 0 <= g < |groups| && 0 <= i < |groups[g]|
        ensures !isDivider(groups[g][i])
      {
        if isDivider(xs[0]) {
          assert groups == [[]] + r;
          assert groups[g][i] == r[g - 1][i];
        } else if g == 0 {
          assert groups[0] == [xs[0]] + r[0];
          if i == 0 {
            assert groups[0][0] == xs[0];
          } else {
            assert groups[0][i] == r[0][i - 1];
          }
        } else {
          assert groups[g][i] == r[g][i];
        }
      }
    }
  }

  /** The groups laid end to end are the input with its dividers removed. */
  lemma {:induction false} SplitConcat<T>(xs: seq<T>, isDivider: T -> bool)
    ensures Concat(Split(xs, isDivider)) == Select(xs, isDivider, false)
    decreases |xs|
  {
    if xs != [] {
      var r := Split(xs[1..], isDivider);
      SplitConcat(xs[1..], isDivider);
      if isDivider(xs[0]) {
        assert ([[]] + r)[1..] == r;
      } else {
        var g := [[xs[0]] + r[0]] + r[1..];
        assert g[1..] == r[1..];
        assert Concat(r) == r[0] + Concat(r[1..]);
        assert Concat(g) == [xs[0]] + r[0] + Concat(r[1..]);
      }
    }
  }

  /** One step of the `reduce` in `splitArray`: a divider opens a new group, anything else joins the last one. */
  function SplitStep<T>(acc: seq<seq<T>>, x: T, isDivider: T -> bool): (r: seq<seq<T>>)
    requires acc != []
  {
    if isDivider(x) then acc + [[]]
    else acc[..|acc| - 1] + [acc[|acc| - 1] + [x]]
  }

  /** The `reduce` in `splitArray`, from accumulator `acc` over the remaining `xs`. */
  function SplitFrom<T>(acc: seq<seq<T>>, xs: seq<T>, isDivider: T -> bool): (r: seq<seq<T>>)
    requires acc != []
    decreases |xs|
  {
    if xs == [] then acc else SplitFrom(SplitStep(acc, xs[0], isDivider), xs[1..], isDivider)
  }

  /** `acc` with `groups[0]` appended to its last group and the other groups after it. */
  function Graft<T>(acc: seq<seq<T>>, groups: seq<seq<T>>): seq<seq<T>>
    requires acc != [] && groups != []
  {
    acc[..|acc| - 1] + [acc[|acc| - 1] + groups[0]] + groups[1..]
  }

  /** Grafting after a divider step is grafting a leading empty group. */
  lemma GraftAfterDivider<T>(acc: seq<seq<T>>, r: seq<seq<T>>)
    requires acc != [] && r != []
    ensures Graft(acc + [[]], r) == Graft(acc, [[]] + r)
  {
    var n := |acc|;
    assert Graft(acc + [[]], r) == acc + r by {
      assert (acc + [[]])[..n] == acc;
      assert [] + r[0] == r[0];
      assert [r[0]] + r[1..] == r;
    }
    assert Graft(acc, [[]] + r) == acc + r by {
      assert acc[n - 1] + [] == acc[n - 1];
      assert ([[]] + r)[1..] == r;
      assert acc[..n - 1] + [acc[n - 1]] == acc;
    }
  }

  /** Grafting after a step that extends the last group is grafting the element onto the first group. */
  lemma GraftAfterElement<T>(acc: seq<seq<T>>, x: T, r: seq<seq<T>>)
    requires acc != [] && r != []
    ensures Graft(acc[..|acc| - 1] + [acc[|acc| - 1] + [x]], r) == Graft(acc, [[x] + r[0]] + r[1..])
  {
    var n := |acc|;
    var step := acc[..n - 1] + [acc[n - 1] + [x]];
    assert step[..n - 1] == acc[..n - 1];
    assert acc[n - 1] + [x] + r[0] == acc[n - 1] + ([x] + r[0]);
  }

  /** The left fold from any accumulator continues it with the reference groups of what is left. */
  lemma {:induction false} SplitFromGraft<T>(acc: seq<seq<T>>, xs: seq<T>, isDivider: T -> bool)
    requires acc != []
    ensures SplitFrom(acc, xs, isDivider) == Graft(acc, Split(xs, isDivider))
    decreases |xs|
  {
    var n := |acc|;
    if xs == [] {
      assert acc[n - 1] + [] == acc[n - 1];
      assert acc[..n - 1] + [acc[n - 1]] == acc;
    } else {
      var x, rest := xs[0], xs[1..];
      var r := Split(rest, isDivider);
      SplitFromGraft(SplitStep(acc, x, isDivider), rest, isDivider);
      if isDivider(x) {
        GraftAfterDivider(acc, r);
      } else {
        GraftAfterElement(acc, x, r);
      }
    }
  }

  /** The `reduce` from one empty group yields the reference groups. */
  lemma SplitFromStart<T>(xs: seq<T>, isDivider: T -> bool)
    ensures SplitFrom([[]], xs, isDivider) == Split(xs, isDivider)
  {
    var r := Split(xs, isDivider);
    SplitFromGraft([[]], xs, isDivider);
    assert Graft([[]], r) == r by {
      assert [] + r[0] == r[0];
      assert [r[0]] + r[1..] == r;
    }
  }

  /**
   * `splitArray`: the `reduce` starting from one empty group computes the
   * reference groups, so there is one group more than there are dividers, no
   * group holds a divider, the groups laid end to end are the input without
   * its dividers, and putting the dividers back between them restores the input.
   */
  function SplitArray<T>(xs: seq<T>, isDivider: T -> bool): (groups: seq<seq<T>>)
    ensures groups == Split(xs, isDivider)
    ensures |groups| == |Select(xs, isDivider, true)| + 1
    ensures forall g, i :: 0 <= g < |groups| && 0 <= i < |groups[g]| ==> !isDivider(groups[g][i])
    ensures Concat(groups) == Select(xs, isDivider, false)
    ensures Join(groups, Select(xs, isDivider, true)) == xs
  {
    SplitFromStart(xs, isDivider);
    SplitJoin(xs, isDivider);
    SplitNoDivider(xs, isDivider);
    SplitConcat(xs, isDivider);
    SplitFrom([[]], xs, isDivider)
  }

  /** `splitNodesByDividers`: split at every `div` node (`,`, `/` or `:`). */
  function SplitNodesByDividers(nodes: seq<Token>): (groups: seq<seq<Token>>)
    ensures |groups| == |Select(nodes, IsDivider, true)| + 1
    ensures forall g, i :: 0 <= g < |groups| && 0 <= i < |groups[g]| ==> !groups[g][i].Div?
  {
    SplitArray(nodes, IsDivider)
  }

  // ---------------------------------------------------------------------------
  // getFunctionValue

  /** `i` is the position of the first function node named `fn`. */
  predicate IsFirstFunction(nodes: seq<Token>, fn: string, i: int) {
    0 <= i < |nodes| && IsFunctionNamed(nodes[i], fn) && forall j :: 0 <= j < i ==> !IsFunctionNamed(nodes[j], fn)
  }

  /** `c` is the position of the first word or string node. */
  predicate IsFirstValue(nodes: seq<Token>, c: int) {
    0 <= c < |nodes| && IsValue(nodes[c]) && forall j :: 0 <= j < c ==> !IsValue(nodes[j])
  }

  /**
   * `getFunctionValue`: the value of the first word or string child of the
   * first function named exactly `fn`; nothing when there is no such function
   * or that function has no word or string child (a later function of the
   * same name is not consulted).
   */
  function GetFunctionValue(nodes: seq<Token>, fn: string): (r: Option<string>)
    ensures r.Some? <==> exists i, c :: IsFirstFunction(nodes, fn, i) && IsFirstValue(nodes[i].children, c)
    ensures forall i, c :: IsFirstFunction(nodes, fn, i) && IsFirstValue(nodes[i].children, c) ==>
      r == Some(nodes[i].children[c].value)
  {
    match FirstIndex(nodes, t => IsFunctionNamed(t, fn))
    case None => None
    case Some(i) =>
      match FirstIndex(nodes[i].children, IsValue)
      case None => None
      case Some(c) =>
        assert IsFirstFunction(nodes, fn, i) && IsFirstValue(nodes[i].children, c);
        Some(nodes[i].children[c].value)
  }

  // ---------------------------------------------------------------------------
  // parseFontFaceSrcDeclaration

  /** One alternative of a `src` list. */
  datatype Source = Source(url: Option<string>, format: Option<string>)

  function ResolveSource(group: seq<Token>): Source {
    Source(GetFunctionValue(group, "url"), GetFunctionValue(group, "format"))
  }

  /**
   * `parseFontFaceSrcDeclaration`, given the tokenizer's top-level nodes:
   * one source per divider-separated group of the walked nodes, in order.
   */
  function ParseFontFaceSrcDeclaration(tree: seq<Token>): (sources: seq<Source>)
    ensures |sources| == |Select(Walk(tree), IsDivider, true)| + 1
    ensures forall k :: 0 <= k < |sources| ==> sources[k] == ResolveSource(SplitNodesByDividers(Walk(tree))[k])
  {
    var groups := SplitNodesByDividers(Walk(tree));
    seq(|groups|, k requires 0 <= k < |groups| => ResolveSource(groups[k]))
  }

  /**
   * When no function argument list holds a divider, the walk adds none, so
   * the number of sources is the number of top-level dividers plus one.
   */
  lemma {:induction false} WalkAddsNoDividers(tree: seq<Token>)
    requires forall i :: 0 <= i < |tree| && tree[i].Func? ==> Select(Walk(tree[i].children), IsDivider, true) == []
    ensures Select(Walk(tree), IsDivider, true) == Select(tree, IsDivider, true)
    ensures |ParseFontFaceSrcDeclaration(tree)| == |Select(tree, IsDivider, true)| + 1
    decreases |tree|
  {
    if tree != [] {
      var head := tree[0];
      var nested := match head case Func(_, children) => Walk(children) case _ => [];
      assert Select(nested, IsDivider, true) == [];
      WalkAddsNoDividers(tree[1..]);
      SelectAppend([head] + nested, Walk(tree[1..]), IsDivider, true);
      SelectAppend([head], nested, IsDivider, true);
      SelectAppend([head], tree[1..], IsDivider, true);
      assert [head] + tree[1..] == tree;
    }
  }
}

=== FILE: font_face.dfy ===
/**
 * One `@font-face` rule turned into font descriptors: `getAllDeclarations`
 * and `extractFontFaceInfo` (index.js, lines 97-110 and 135-141).
 */
module FontFace {
  import opened Wrappers
  import opened Seqs
  import opened Objects
  import opened Strings
  import opened CssValue
  import opened FontFile

  /** An original file name of the bundle; `None` is JavaScript's `undefined` or `null`. */
  type Name = Option<string>

  /** One declaration of a rule: `prop: value`. */
  datatype Decl = Decl(prop: string, value: string)

  /** The declarations of one `@font-face` rule, in the order the rule walk visits them. */
  type Rule = seq<Decl>

  /** The CSS value tokenizer: the top-level nodes of a declaration value. */
  type ValueParser = string -> seq<Token>

  /** The declarations as the `[prop, value]` pairs that `getAllDeclarations` assigns, in order. */
  function DeclarationPairs(rule: Rule): (pairs: seq<(string, string)>)
    ensures |pairs| == |rule|
    ensures forall i :: 0 <= i < |rule| ==> pairs[i] == (rule[i].prop, rule[i].value)
  {
    seq(|rule|, i requires 0 <= i < |rule| => (rule[i].prop, rule[i].value))
  }

  /** Declaration `i` is the last one in the rule for `prop`. */
  predicate IsLastDeclaration(rule: Rule, prop: string, i: int) {
    var pairs := DeclarationPairs(rule);
    IsLastKey(pairs, i) && pairs[i].0 == prop
  }

  /** Some declaration of the rule is for `prop`. */
  predicate Declares(rule: Rule, prop: string) {
    HasKey(DeclarationPairs(rule), prop)
  }

  /**
   * `getAllDeclarations`: every declared property, mapped to the value of
   * its last declaration.
   */
  function GetAllDeclarations(rule: Rule): (decls: map<string, string>)
    ensures forall prop :: prop in decls <==> Declares(rule, prop)
    ensures forall prop, i :: IsLastDeclaration(rule, prop, i) ==> prop in decls && decls[prop] == rule[i].value
  {
    var pairs := DeclarationPairs(rule);
    assert forall prop :: prop in FromEntries(pairs) <==> Declares(rule, prop) by {
      forall prop
        ensures prop in FromEntries(pairs) <==> Declares(rule, prop)
      {
        FromEntriesKeys(pairs, prop);
      }
    }
    assert forall prop, i :: IsLastDeclaration(rule, prop, i) ==> prop in FromEntries(pairs) && FromEntries(pairs)[prop] == rule[i].value by {
      forall prop, i | IsLastDeclaration(rule, prop, i)
        ensures prop in FromEntries(pairs) && FromEntries(pairs)[prop] == rule[i].value
      {
        assert IsLastKey(pairs, i);
        FromEntriesLastWins(pairs, i);
      }
    }
    FromEntries(pairs)
  }

  /** Every declared property has a last declaration. */
  lemma LastDeclarationExists(rule: Rule, prop: string) returns (i: int)
    requires Declares(rule, prop)
    ensures IsLastDeclaration(rule, prop, i)
  {
    i := LastKeyExists(DeclarationPairs(rule), prop);
  }

  // ---------------------------------------------------------------------------
  // Descriptors

  /** A font descriptor without its url: the `{ fontFace }` stored in the manifest. */
  datatype Face = Face(
    format: string,
    family: Option<string>,
    weight: string,
    style: string,
    display: string,
    mime: string,
    definedIn: Option<seq<Name>>)

  /** One resolved source of a rule. */
  datatype Descriptor = Descriptor(url: string, face: Face)

  /** JavaScript `value || fallback` on an optional string: the empty string falls back too. */
  function Or(value: Option<string>, fallback: string): (r: string)
    ensures value.Some? && value.value != "" ==> r == value.value
    ensures value.None? || value.value == "" ==> r == fallback
  {
    if value.Some? && value.value != "" then value.value else fallback
  }

  function Get(decls: map<string, string>, prop: string): Option<string> {
    if prop in decls then Some(decls[prop]) else None
  }

  /** The two quote characters stripped from a family name. */
  const Quotes: set<char> := {'\'', '"'}

  /** The sources of the rule's `src` declaration, one per divider-separated group. */
  function SrcSources(rule: Rule, parse: ValueParser): seq<Source>
    requires Declares(rule, "src")
  {
    ParseFontFaceSrcDeclaration(parse(GetAllDeclarations(rule)["src"]))
  }

  /**
   * What `extractFontFaceInfo` needs in order not to throw: a `src`
   * declaration, and a `url(...)` in every one of its groups.
   */
  predicate WellFormedRule(rule: Rule, parse: ValueParser) {
    && Declares(rule, "src")
    && var sources := SrcSources(rule, parse);
       forall k :: 0 <= k < |sources| ==> sources[k].url.Some?
  }

  /**
   * The descriptor of one source: the group's url; its non-empty format hint,
   * or else the url's extension; the family with every quote removed; each
   * other field from its non-empty declaration, or else its default; the
   * MIME type of the url; and `definedIn` from `data`.
   */
  function MakeDescriptor(source: Source, decls: map<string, string>, definedIn: Option<seq<Name>>): (d: Descriptor)
    requires source.url.Some?
    ensures d.url == source.url.value
    ensures source.format.Some? && source.format.value != "" ==> d.face.format == source.format.value
    ensures source.format.None? || source.format.value == "" ==> d.face.format == GetExtension(d.url)
    ensures "font-family" !in decls ==> d.face.family == None
    ensures "font-family" in decls ==> d.face.family == Some(RemoveChars(decls["font-family"], Quotes))
    ensures d.face.weight == if "font-weight" in decls && decls["font-weight"] != "" then decls["font-weight"] else "normal"
    ensures d.face.style == if "font-style" in decls && decls["font-style"] != "" then decls["font-style"] else "normal"
    ensures d.face.display == if "font-display" in decls && decls["font-display"] != "" then decls["font-display"] else "auto"
    ensures d.face.mime == GetMimeType(d.url)
    ensures d.face.definedIn == definedIn
  {
    var url := source.url.value;
    var family := Get(decls, "font-family");
    Descriptor(url, Face(
      format := Or(source.format, GetExtension(url)),
      family := if family.Some? then Some(RemoveChars(family.value, Quotes)) else None,
      weight := Or(Get(decls, "font-weight"), "normal"),
      style := Or(Get(decls, "font-style"), "normal"),
      display := Or(Get(decls, "font-display"), "auto"),
      mime := GetMimeType(url),
      definedIn := definedIn))
  }

  /** The fields every descriptor of one rule shares. */
  predicate SameRuleFields(a: Face, b: Face) {
    a.family == b.family && a.weight == b.weight && a.style == b.style && a.display == b.display && a.definedIn == b.definedIn
  }

  /**
   * `extractFontFaceInfo`, with `data` = `{ definedIn }` when `definedIn` is
   * present and `{}` otherwise: one descriptor per `src` group, in group
   * order, carrying that group's url, and `definedIn` taken from `data` as
   * given.
   */
  function ExtractFontFaceInfo(rule: Rule, parse: ValueParser, definedIn: Option<seq<Name>>): (r: seq<Descriptor>)
    requires WellFormedRule(rule, parse)
    ensures |r| == |SrcSources(rule, parse)|
    ensures forall k :: 0 <= k < |r| ==> SrcSources(rule, parse)[k].url == Some(r[k].url)
    ensures forall k :: 0 <= k < |r| ==> r[k].face.definedIn == definedIn
  {
    var decls := GetAllDeclarations(rule);
    var sources := SrcSources(rule, parse);
    seq(|sources|, k requires 0 <= k < |sources| => MakeDescriptor(sources[k], decls, definedIn))
  }

  lemma SourceFields(rule: Rule, parse: ValueParser, definedIn: Option<seq<Name>>, k: nat)
    requires WellFormedRule(rule, parse)
    requires k < |ExtractFontFaceInfo(rule, parse, definedIn)|
    ensures var d := ExtractFontFaceInfo(rule, parse, definedIn)[k];
      d.face.format == Or(SrcSources(rule, parse)[k].format, GetExtension(d.url)) && d.face.mime == GetMimeType(d.url)
  {
  }

  /**
   * Each descriptor's format is the group's non-empty `format(...)` value,
   * or else the url's extension; its MIME type always comes from the url.
   */
  lemma FontFaceFormatAndMime(rule: Rule, parse: ValueParser, definedIn: Option<seq<Name>>)
    requires WellFormedRule(rule, parse)
    ensures var r := ExtractFontFaceInfo(rule, parse, definedIn);
      forall k :: 0 <= k < |r| ==>
        var format := SrcSources(rule, parse)[k].format;
        r[k].face.format == if format.Some? && format.value != "" then format.value else GetExtension(r[k].url)
    ensures var r := ExtractFontFaceInfo(rule, parse, definedIn);
      forall k :: 0 <= k < |r| ==> r[k].face.mime == GetMimeType(r[k].url)
  {
    var r := ExtractFontFaceInfo(rule, parse, definedIn);
    forall k | 0 <= k < |r|
      ensures r[k].face.format == Or(SrcSources(rule, parse)[k].format, GetExtension(r[k].url))
      ensures r[k].face.mime == GetMimeType(r[k].url)
    {
      SourceFields(rule, parse, definedIn, k);
    }
  }

  /** All descriptors of a rule share family, weight, style, display and `definedIn`; the family holds no quote. */
  lemma FontFaceSharedFields(rule: Rule, parse: ValueParser, definedIn: Option<seq<Name>>)
    requires WellFormedRule(rule, parse)
    ensures var r := ExtractFontFaceInfo(rule, parse, definedIn);
      forall k, l :: 0 <= k < |r| && 0 <= l < |r| ==> SameRuleFields(r[k].face, r[l].face)
    ensures var r := ExtractFontFaceInfo(rule, parse, definedIn);
      forall k :: 0 <= k < |r| && r[k].face.family.Some? ==>
        forall c :: 0 <= c < |r[k].face.family.value| ==> r[k].face.family.value[c] !in Quotes
  {
  }

  /**
   * A rule yields one descriptor per divider-separated `src` group: when no
   * function argument holds a divider, that is the number of top-level
   * dividers (`,`, `/` or `:`) of the last `src` value plus one.
   */
  lemma OneDescriptorPerSource(rule: Rule, parse: ValueParser, definedIn: Option<seq<Name>>, i: int)
    requires WellFormedRule(rule, parse)
    requires IsLastDeclaration(rule, "src", i)
    requires var tree := parse(rule[i].value);
      forall n :: 0 <= n < |tree| && tree[n].Func? ==> Select(Walk(tree[n].children), IsDivider, true) == []
    ensures |ExtractFontFaceInfo(rule, parse, definedIn)| == |Select(parse(rule[i].value), IsDivider, true)| + 1
  {
    WalkAddsNoDividers(parse(rule[i].value));
  }

  /** The property is absent from the rule, or its last declaration is empty. */
  predicate AbsentOrEmpty(rule: Rule, prop: string) {
    forall i :: 0 <= i < |rule| && IsLastDeclaration(rule, prop, i) ==> rule[i].value == ""
  }

  /** Every descriptor of the rule takes `prop` from the last declaration of `prop`, or `fallback` when that is absent or empty. */
  predicate TakesDeclared(rule: Rule, r: seq<Descriptor>, prop: string, fallback: string) {
    && (AbsentOrEmpty(rule, prop) ==> forall k :: 0 <= k < |r| ==> Field(r[k].face, prop) == fallback)
    && (forall i :: 0 <= i < |rule| && IsLastDeclaration(rule, prop, i) && rule[i].value != "" ==>
          forall k :: 0 <= k < |r| ==> Field(r[k].face, prop) == rule[i].value)
  }

  /** The face field a descriptor property fills in. */
  function Field(face: Face, prop: string): string {
    if prop == "font-weight" then face.weight
    else if prop == "font-style" then face.style
    else face.display
  }

  lemma DeclaredOrDefault(rule: Rule, prop: string, fallback: string)
    ensures AbsentOrEmpty(rule, prop) ==> Or(Get(GetAllDeclarations(rule), prop), fallback) == fallback
    ensures forall i :: 0 <= i < |rule| && IsLastDeclaration(rule, prop, i) && rule[i].value != "" ==>
      Or(Get(GetAllDeclarations(rule), prop), fallback) == rule[i].value
  {
    var decls := GetAllDeclarations(rule);
    if prop in decls {
      var i := LastDeclarationExists(rule, prop);
    }
  }

  /** The descriptor property a face field is read from, with its default. */
  predicate Defaulted(prop: string, fallback: string) {
    || (prop == "font-weight" && fallback == "normal")
    || (prop == "font-style" && fallback == "normal")
    || (prop == "font-display" && fallback == "auto")
  }

  lemma DescriptorField(rule: Rule, parse: ValueParser, definedIn: Option<seq<Name>>, prop: string, fallback: string, k: nat)
    requires WellFormedRule(rule, parse)
    requires Defaulted(prop, fallback)
    requires k < |ExtractFontFaceInfo(rule, parse, definedIn)|
    ensures Field(ExtractFontFaceInfo(rule, parse, definedIn)[k].face, prop) == Or(Get(GetAllDeclarations(rule), prop), fallback)
  {
  }

  lemma TakesDeclaredField(rule: Rule, parse: ValueParser, definedIn: Option<seq<Name>>, prop: string, fallback: string)
    requires WellFormedRule(rule, parse)
    requires Defaulted(prop, fallback)
    ensures TakesDeclared(rule, ExtractFontFaceInfo(rule, parse, definedIn), prop, fallback)
  {
    var r := ExtractFontFaceInfo(rule, parse, definedIn);
    DeclaredOrDefault(rule, prop, fallback);
    forall k | 0 <= k < |r|
      ensures Field(r[k].face, prop) == Or(Get(GetAllDeclarations(rule), prop), fallback)
    {
      DescriptorField(rule, parse, definedIn, prop, fallback, k);
    }
  }

  /** Weight, style and display come from their last non-empty declaration, and default to `normal`, `normal` and `auto`. */
  lemma FontFaceDefaults(rule: Rule, parse: ValueParser, definedIn: Option<seq<Name>>)
    requires WellFormedRule(rule, parse)
    ensures TakesDeclared(rule, ExtractFontFaceInfo(rule, parse, definedIn), "font-weight", "normal")
    ensures TakesDeclared(rule, ExtractFontFaceInfo(rule, parse, definedIn), "font-style", "normal")
    ensures TakesDeclared(rule, ExtractFontFaceInfo(rule, parse, definedIn), "font-display", "auto")
  {
    TakesDeclaredField(rule, parse, definedIn, "font-weight", "normal");
    TakesDeclaredField(rule, parse, definedIn, "font-style", "normal");
    TakesDeclaredField(rule, parse, definedIn, "font-display", "auto");
  }

  /** The family is the last `font-family` value without its quotes, and absent when the rule has none. */
  lemma FontFaceFamily(rule: Rule, parse: ValueParser, definedIn: Option<seq<Name>>)
    requires WellFormedRule(rule, parse)
    ensures var r := ExtractFontFaceInfo(rule, parse, definedIn);
      !Declares(rule, "font-family") ==> forall k :: 0 <= k < |r| ==> r[k].face.family == None
    ensures var r := ExtractFontFaceInfo(rule, parse, definedIn);
      forall i :: 0 <= i < |rule| && IsLastDeclaration(rule, "font-family", i) ==>
        forall k :: 0 <= k < |r| ==> r[k].face.family == Some(RemoveChars(rule[i].value, Quotes))
  {
    var r := ExtractFontFaceInfo(rule, parse, definedIn);
    var decls := GetAllDeclarations(rule);
    var sources := SrcSources(rule, parse);
    forall k | 0 <= k < |r|
      ensures "font-family" !in decls ==> r[k].face.family == None
      ensures "font-family" in decls ==> r[k].face.family == Some(RemoveChars(decls["font-family"], Quotes))
    {
      assert r[k] == MakeDescriptor(sources[k], decls, definedIn);
    }
  }
}

=== FILE: font_file.dfy ===
/**
 * File-name handling for font urls: `path.extname`, `getExtension` and
 * `getMimeType` (index.js, lines 151-164).
 */
module FontFile {
  import opened Wrappers
  import opened Strings

  /** Neither a `.` nor a `/` occurs in `s`. */
  predicate NoSeparator(s: string) {
    forall i :: 0 <= i < |s| ==> s[i] != '.' && s[i] != '/'
  }

  /** The path with any run of trailing `/` removed. */
  function TrimTrailingSlashes(path: string): (r: string)
    ensures |r| <= |path| && r == path[..|r|]
    ensures r == "" || r[|r| - 1] != '/'
    ensures forall i :: |r| <= i < |path| ==> path[i] == '/'
  {
    if |path| > 0 && path[|path| - 1] == '/' then TrimTrailingSlashes(path[..|path| - 1]) else path
  }

  /** Where the last segment of a path without trailing `/` starts. */
  function SegmentStart(t: string): (start: nat)
    ensures start <= |t|
    ensures forall j :: start <= j < |t| ==> t[j] != '/'
    ensures start == 0 || t[start - 1] == '/'
  {
    match LastIndexOf(t, '/')
    case None => 0
    case Some(i) => i + 1
  }

  /** The last segment of a path, trailing `/` ignored. */
  function LastSegment(path: string): (seg: string)
    ensures forall j :: 0 <= j < |seg| ==> seg[j] != '/'
  {
    var t := TrimTrailingSlashes(path);
    t[SegmentStart(t)..]
  }

  /** The extension of one path segment (see `Extname`). */
  function SegmentExtension(seg: string): (r: string)
    ensures r == "" || (r[0] == '.' && forall i :: 1 <= i < |r| ==> r[i] != '.')
    ensures |r| <= |seg| && r == seg[|seg| - |r|..]
  {
    match LastIndexOf(seg, '.')
    case None => ""
    case Some(k) => if k == 0 || seg == ".." then "" else seg[k..]
  }

  /**
   * `path.extname` of Node's POSIX path module: from the last `.` of the last
   * path segment (trailing `/` ignored) to its end; empty when that segment
   * has no `.`, when its only `.` is its first character, or when it is `..`.
   */
  function Extname(path: string): (r: string)
    ensures r == "" || (r[0] == '.' && NoSeparator(r[1..]))
  {
    var seg := LastSegment(path);
    var r := SegmentExtension(seg);
    assert forall i :: 0 <= i < |r| ==> r[i] == seg[|seg| - |r| + i];
    r
  }

  lemma TrimNoTrailingSlash(path: string)
    requires path == "" || path[|path| - 1] != '/'
    ensures TrimTrailingSlashes(path) == path
  {
  }

  /** The last position of `c` is `k` when `c` is at `k` and nowhere after it. */
  lemma LastIndexOfAt(s: string, c: char, k: nat)
    requires k < |s| && s[k] == c
    requires forall j :: k < j < |s| ==> s[j] != c
    ensures LastIndexOf(s, c) == Some(k)
  {
  }

  /** Below a directory, or with no directory at all, a name without `/` is the last segment. */
  lemma LastSegmentAfterDirectory(dir: string, seg: string)
    requires dir == "" || dir[|dir| - 1] == '/'
    requires seg != "" && forall j :: 0 <= j < |seg| ==> seg[j] != '/'
    ensures LastSegment(dir + seg) == seg
  {
    var path := dir + seg;
    assert forall j :: |dir| <= j < |path| ==> path[j] == seg[j - |dir|];
    TrimNoTrailingSlash(path);
    if dir == "" {
      assert path == seg;
      assert LastIndexOf(path, '/') == None;
    } else {
      LastIndexOfAt(path, '/', |dir| - 1);
      assert path[|dir|..] == seg;
    }
  }

  /** Appending text without `/` to a path that does not end in `/` extends its last segment. */
  lemma LastSegmentAppend(stem: string, tail: string)
    requires stem != "" && stem[|stem| - 1] != '/'
    requires tail != "" && tail[|tail| - 1] != '/'
    requires forall j :: 0 <= j < |tail| ==> tail[j] != '/'
    ensures LastSegment(stem) != ""
    ensures LastSegment(stem + tail) == LastSegment(stem) + tail
  {
    var path := stem + tail;
    TrimNoTrailingSlash(stem);
    TrimNoTrailingSlash(path);
    var st := SegmentStart(stem);
    match LastIndexOf(stem, '/')
    case None =>
      assert forall j :: 0 <= j < |path| ==> path[j] != '/' by {
        forall j | 0 <= j < |path| ensures path[j] != '/' {
          if j >= |stem| { assert path[j] == tail[j - |stem|]; }
        }
      }
      assert LastIndexOf(path, '/') == None;
    case Some(i) =>
      assert forall j :: i < j < |path| ==> path[j] != '/' by {
        forall j | i < j < |path| ensures path[j] != '/' {
          if j >= |stem| { assert path[j] == tail[j - |stem|]; }
        }
      }
      LastIndexOfAt(path, '/', i);
      assert path[i + 1..] == stem[i + 1..] + tail;
  }

  /** A segment `u.ext`, `u` non-empty, has extension `.ext`. */
  lemma SegmentExtensionOfDottedName(u: string, ext: string)
    requires u != "" && ext != "" && NoSeparator(ext)
    ensures SegmentExtension(u + "." + ext) == "." + ext
  {
    var seg := u + "." + ext;
    var k := |u|;
    assert seg[k] == '.';
    assert forall j :: k < j < |seg| ==> seg[j] == ext[j - k - 1];
    LastIndexOfAt(seg, '.', k);
    assert seg[k..] == "." + ext;
  }

  /** A name `stem.ext` whose stem does not end a directory has extension `.ext`. */
  lemma ExtnameOfDottedName(stem: string, ext: string)
    requires stem != "" && stem[|stem| - 1] != '/'
    requires ext != "" && NoSeparator(ext)
    ensures Extname(stem + "." + ext) == "." + ext
  {
    var tail := "." + ext;
    assert forall j :: 0 <= j < |tail| ==> tail[j] != '/' by {
      forall j | 0 <= j < |tail| ensures tail[j] != '/' {
        if j > 0 { assert tail[j] == ext[j - 1]; }
      }
    }
    var path, u := stem + "." + ext, LastSegment(stem);
    assert path == stem + tail;
    LastSegmentAppend(stem, tail);
    assert LastSegment(path) == u + tail;
    assert u + tail == u + "." + ext;
    SegmentExtensionOfDottedName(u, ext);
  }

  // ---------------------------------------------------------------------------
  // Case

  lemma LowerKeepsPunctuation(c: char, d: char)
    requires d == '.' || d == '/'
    ensures LowerChar(c) == d <==> c == d
  {
  }

  lemma LowerSlice(s: string, lo: int, hi: int)
    requires 0 <= lo <= hi <= |s|
    ensures Lower(s[lo..hi]) == Lower(s)[lo..hi]
  {
  }

  lemma {:induction false} TrimTrailingSlashesLower(path: string)
    ensures TrimTrailingSlashes(Lower(path)) == Lower(TrimTrailingSlashes(path))
    decreases |path|
  {
    var n := |path|;
    if n > 0 {
      LowerKeepsPunctuation(path[n - 1], '/');
      if path[n - 1] == '/' {
        LowerSlice(path, 0, n - 1);
        TrimTrailingSlashesLower(path[..n - 1]);
      }
    }
  }

  lemma LastIndexOfLower(s: string, c: char)
    requires c == '.' || c == '/'
    ensures LastIndexOf(Lower(s), c) == LastIndexOf(s, c)
  {
    forall j | 0 <= j < |s|
      ensures Lower(s)[j] == c <==> s[j] == c
    {
      LowerKeepsPunctuation(s[j], c);
    }
  }

  lemma LastSegmentLower(path: string)
    ensures LastSegment(Lower(path)) == Lower(LastSegment(path))
  {
    var t := TrimTrailingSlashes(path);
    TrimTrailingSlashesLower(path);
    LastIndexOfLower(t, '/');
    LowerSlice(t, SegmentStart(t), |t|);
  }

  lemma SegmentExtensionLower(seg: string)
    ensures SegmentExtension(Lower(seg)) == Lower(SegmentExtension(seg))
  {
    LastIndexOfLower(seg, '.');
    match LastIndexOf(seg, '.')
    case None =>
    case Some(k) =>
      assert Lower(seg) == ".." <==> seg == ".." by {
        if |seg| == 2 {
          LowerKeepsPunctuation(seg[0], '.');
          LowerKeepsPunctuation(seg[1], '.');
        }
      }
      LowerSlice(seg, k, |seg|);
  }

  /** Lower-casing a path lower-cases its extension and nothing else. */
  lemma ExtnameLower(path: string)
    ensures Extname(Lower(path)) == Lower(Extname(path))
  {
    LastSegmentLower(path);
    SegmentExtensionLower(LastSegment(path));
  }

  /**
   * `path.extname` is empty exactly when the last segment has no `.`, when
   * its only `.` is its first character (`.woff`, `dir/.woff`), or when it is
   * `..`; and then the extension is empty too.
   */
  lemma ExtnameEmpty(path: string)
    ensures var seg := LastSegment(path);
      Extname(path) == "" <==>
        || (forall i :: 0 <= i < |seg| ==> seg[i] != '.')
        || (seg != "" && seg[0] == '.' && forall i :: 1 <= i < |seg| ==> seg[i] != '.')
        || seg == ".."
    ensures Extname(path) == "" ==> GetExtension(path) == ""
  {
    var seg := LastSegment(path);
    match LastIndexOf(seg, '.')
    case None =>
    case Some(k) =>
      if k != 0 && seg != ".." {
        assert seg[k] == '.';
        assert Extname(path) == seg[k..];
      }
  }

  /**
   * A name that is only a dot and a dot-free extension, alone or below a
   * directory, has no extension.
   */
  lemma DotNameHasNoExtension(dir: string, x: string)
    requires dir == "" || dir[|dir| - 1] == '/'
    requires x != "" && NoSeparator(x)
    ensures Extname(dir + "." + x) == ""
  {
    var seg := "." + x;
    forall j | 0 <= j < |seg| ensures seg[j] != '/' && (j > 0 ==> seg[j] != '.') {
      if j > 0 {
        assert seg[j] == x[j - 1];
      }
    }
    LastSegmentAfterDirectory(dir, seg);
    assert dir + seg == dir + "." + x;
    LastIndexOfAt(seg, '.', 0);
  }

  // ---------------------------------------------------------------------------
  // getExtension and getMimeType

  /**
   * `getExtension`: the lower-cased extension without its leading dot. It
   * never holds a `.`, a `/` or an upper-case ASCII letter.
   */
  function GetExtension(filename: string): (r: string)
    ensures NoSeparator(r)
    ensures forall i :: 0 <= i < |r| ==> !('A' <= r[i] <= 'Z')
  {
    var x := Extname(filename);
    LowerNoSeparator(x);
    LowerHasNoUpperCase(x);
    DropDot(Lower(x))
  }

  /** The extension without its leading dot, if it has one. */
  function DropDot(e: string): (r: string)
    ensures e != "" && e[0] == '.' ==> e == "." + r
    ensures e == "" || e[0] != '.' ==> r == e
    ensures e == "" || (e[0] == '.' && NoSeparator(e[1..])) ==> NoSeparator(r)
    ensures (forall i :: 0 <= i < |e| ==> !('A' <= e[i] <= 'Z')) ==> forall i :: 0 <= i < |r| ==> !('A' <= r[i] <= 'Z')
  {
    if |e| > 0 && e[0] == '.' then e[1..] else e
  }

  lemma LowerNoSeparator(x: string)
    requires x == "" || (x[0] == '.' && NoSeparator(x[1..]))
    ensures var e := Lower(x); e == "" || (e[0] == '.' && NoSeparator(e[1..]))
  {
    var e := Lower(x);
    if x != "" {
      assert e[0] == '.';
      forall i | 0 <= i < |e[1..]|
        ensures e[1..][i] != '.' && e[1..][i] != '/'
      {
        assert e[1..][i] == LowerChar(x[1..][i]);
        LowerKeepsPunctuation(x[1..][i], '.');
        LowerKeepsPunctuation(x[1..][i], '/');
      }
    }
  }

  /** The five recognised font extensions and their MIME types. */
  const Mimes: map<string, string> := map[
    "woff2" := "font/woff2",
    "woff" := "font/woff",
    "ttf" := "font/truetype",
    "otf" := "font/opentype",
    "eot" := "font/embedded-opentype"
  ]

  const Unknown: string := "unknown"

  /** `getMimeType`: the MIME type of the extension, `unknown` when it is not a font extension. */
  function GetMimeType(filename: string): (r: string)
    ensures r in Mimes.Values || r == Unknown
    ensures r == Unknown <==> GetExtension(filename) !in Mimes
    ensures r != Unknown ==> r == Mimes[GetExtension(filename)]
  {
    MimeOf(GetExtension(filename))
  }

  /** The MIME type of one extension. */
  function MimeOf(ext: string): (r: string)
    ensures r in Mimes.Values || r == Unknown
    ensures r == Unknown <==> ext !in Mimes
    ensures r != Unknown ==> r == Mimes[ext]
  {
    UnknownIsNotAMime();
    if ext in Mimes then Mimes[ext] else Unknown
  }

  /** `unknown` is none of the table's MIME types. */
  lemma UnknownIsNotAMime()
    ensures Unknown !in Mimes.Values
  {
    forall k | k in Mimes ensures Mimes[k] != Unknown {
      assert Mimes[k][0] == 'f' != Unknown[0];
    }
  }

  /** Two file names that differ only in ASCII case have the same extension and MIME type. */
  lemma MimeIsCaseInsensitive(a: string, b: string)
    requires Lower(a) == Lower(b)
    ensures GetExtension(a) == GetExtension(b)
    ensures GetMimeType(a) == GetMimeType(b)
  {
    ExtnameLower(a);
    ExtnameLower(b);
  }

  /** `getExtension` drops the dot that starts a non-empty `extname`. */
  lemma GetExtensionOfExtname(filename: string, x: string)
    requires Extname(filename) == "." + x
    ensures GetExtension(filename) == Lower(x)
  {
    LowerDotPrefix(x);
    var e := "." + Lower(x);
    assert e[1..] == Lower(x);
  }

  /** `stem.EXT` for a recognised extension, in any case, gets that extension's MIME type. */
  lemma MimeOfFontFile(stem: string, ext: string)
    requires stem != "" && stem[|stem| - 1] != '/'
    requires Lower(ext) in Mimes
    ensures GetExtension(stem + "." + ext) == Lower(ext)
    ensures GetMimeType(stem + "." + ext) == Mimes[Lower(ext)]
  {
    assert NoSeparator(ext) by {
      forall i | 0 <= i < |ext|
        ensures ext[i] != '.' && ext[i] != '/'
      {
        LowerKeepsPunctuation(ext[i], '.');
        LowerKeepsPunctuation(ext[i], '/');
      }
    }
    ExtnameOfDottedName(stem, ext);
    GetExtensionOfExtname(stem + "." + ext, ext);
  }

  /** Every recognised extension is made of lower-case ASCII letters and digits. */
  lemma MimeKeysAreAlphanumeric(k: string, j: int)
    requires k in Mimes && 0 <= j < |k|
    ensures 'a' <= k[j] <= 'z' || '0' <= k[j] <= '9'
  {
  }

  /** The extension of `stem.ext?query` keeps the query. */
  lemma ExtensionKeepsQuery(stem: string, ext: string, query: string)
    requires stem != "" && stem[|stem| - 1] != '/'
    requires Lower(ext) in Mimes
    requires NoSeparator(query)
    ensures GetExtension(stem + "." + ext + query) == Lower(ext + query)
  {
    var tail := ext + query;
    assert NoSeparator(tail) by {
      forall i | 0 <= i < |tail|
        ensures tail[i] != '.' && tail[i] != '/'
      {
        if i < |ext| {
          LowerKeepsPunctuation(ext[i], '.');
          LowerKeepsPunctuation(ext[i], '/');
          assert Lower(ext)[i] == LowerChar(ext[i]);
        } else {
          assert tail[i] == query[i - |ext|];
        }
      }
    }
    assert tail != "" by {
      assert |Lower(ext)| > 0;
    }
    ExtnameOfDottedName(stem, tail);
    assert stem + "." + ext + query == stem + "." + tail;
    GetExtensionOfExtname(stem + "." + ext + query, tail);
  }

  /**
   * A query or fragment after a font extension (`font.eot?#iefix`) stays in
   * the extension, so the MIME type is `unknown`.
   */
  lemma MimeKeepsQuery(stem: string, ext: string, query: string)
    requires stem != "" && stem[|stem| - 1] != '/'
    requires Lower(ext) in Mimes
    requires query != "" && (query[0] == '?' || query[0] == '#') && NoSeparator(query)
    ensures GetExtension(stem + "." + ext + query) == Lower(ext + query)
    ensures GetMimeType(stem + "." + ext + query) == Unknown
  {
    ExtensionKeepsQuery(stem, ext, query);
    var lowered := Lower(ext + query);
    assert lowered[|ext|] == LowerChar(query[0]);
    if lowered in Mimes {
      MimeKeysAreAlphanumeric(lowered, |ext|);
    }
  }

  /**
   * A query that holds a dot, such as a version `?v=3.19`, moves the
   * extension past the font's own: `stem.ext?v=3.19` gets extension `19`.
   */
  lemma DottedQueryReplacesExtension(stem: string, ext: string, query: string, x: string)
    requires stem != "" && stem[|stem| - 1] != '/'
    requires Lower(ext) in Mimes
    requires forall i :: 0 <= i < |query| ==> query[i] != '/'
    requires x != "" && NoSeparator(x)
    ensures GetExtension(stem + "." + ext + query + "." + x) == Lower(x)
  {
    var base := stem + "." + ext + query;
    assert base[|base| - 1] != '/' by {
      if query == "" {
        var n := |ext| - 1;
        MimeKeysAreAlphanumeric(Lower(ext), n);
        LowerKeepsPunctuation(ext[n], '/');
        assert base[|base| - 1] == ext[n];
      } else {
        assert base[|base| - 1] == query[|query| - 1];
      }
    }
    ExtnameOfDottedName(base, x);
    GetExtensionOfExtname(base + "." + x, x);
  }

  lemma IefixUrlParts()
    ensures "font" + "." + "eot" + "?#iefix" == "font.eot?#iefix"
    ensures Lower("eot") == "eot"
    ensures NoSeparator("?#iefix")
  {
  }

  /** The example from the usual IE-compatible `src` lists. */
  lemma MimeOfIefixUrl()
    ensures GetMimeType("font.eot?#iefix") == Unknown
  {
    IefixUrlParts();
    MimeKeepsQuery("font", "eot", "?#iefix");
  }
}

=== FILE: manifest.dfy ===
/**
 * `writeBundle`: merging the collected font information into the entries of
 * Vite's manifest. The manifest is read and written as JSON outside the
 * model; here it is the parsed object.
 */
module Manifest {
  import opened Wrappers
  import opened FontFace
  import opened Bundle

  /** A property value of a manifest entry, as far as the merge tells values apart. */
  datatype Value = Json(text: string) | FontFaceValue(face: Face) | FontsValue(names: seq<Name>)

  /** A manifest entry: an object, or a value JavaScript treats as false. */
  datatype Entry = Object(fields: map<string, Value>) | Falsy

  /** The parsed manifest, keyed by file name. */
  type Manifest = map<string, Entry>

  /** The `data` spread into one entry: `{ fontFace }` for a font, `{ fonts }` for a stylesheet. */
  datatype Patch = FontFacePatch(face: Face) | FontsPatch(names: seq<Name>)

  /**
   * The stylesheets' patches overlaid with the fonts' patches, each value
   * wrapped in the property it sets: a name that is both a stylesheet and a
   * font takes the font's patch.
   */
  function Patches(info: FontInfo): (patches: map<Name, Patch>)
    ensures patches.Keys == info.stylesheets.Keys + info.fonts.Keys
  {
    map n | n in info.stylesheets.Keys + info.fonts.Keys ::
      if n in info.fonts then FontFacePatch(info.fonts[n]) else FontsPatch(info.stylesheets[n])
  }

  /** Spreading an object entry and then the patch: the patch's property is set, every other one kept. */
  function Spread(entry: Entry, patch: Patch): (r: Entry)
    requires entry.Object?
    ensures r.Object? && r.fields.Keys == entry.fields.Keys + {PatchedField(patch)}
  {
    match patch
    case FontFacePatch(face) => Object(entry.fields["fontFace" := FontFaceValue(face)])
    case FontsPatch(names) => Object(entry.fields["fonts" := FontsValue(names)])
  }

  /** The property a patch sets. */
  function PatchedField(patch: Patch): string {
    if patch.FontFacePatch? then "fontFace" else "fonts"
  }

  /** The value a patch sets. */
  function PatchedValue(patch: Patch): Value {
    match patch
    case FontFacePatch(face) => FontFaceValue(face)
    case FontsPatch(names) => FontsValue(names)
  }

  /** The entry a name patches: a present file name whose entry is an object. */
  predicate Patchable(manifest: Manifest, n: Name) {
    n.Some? && n.value in manifest && manifest[n.value].Object?
  }

  /**
   * One step of the reduce: when the name's entry is present and truthy, the
   * patch is spread over it; every other entry, and every other property of
   * that entry, stays as it was.
   */
  function MergeStep(contents: Manifest, n: Name, patch: Patch): (r: Manifest)
    ensures r.Keys == contents.Keys
    ensures forall f :: f in contents && Some(f) != n ==> r[f] == contents[f]
    ensures !Patchable(contents, n) ==> r == contents
    ensures Patchable(contents, n) ==> r[n.value].Object?
    ensures Patchable(contents, n) ==>
      var fields := r[n.value].fields;
      && PatchedField(patch) in fields
      && fields[PatchedField(patch)] == PatchedValue(patch)
      && forall g :: g in contents[n.value].fields && g != PatchedField(patch) ==> g in fields && fields[g] == contents[n.value].fields[g]
  {
    if Patchable(contents, n) then contents[n.value := Spread(contents[n.value], patch)] else contents
  }

  /**
   * The merged manifest, entry by entry: an object entry whose name has a
   * patch gets it spread over it, and every other entry is left as it was.
   */
  function Merged(manifest: Manifest, patches: map<Name, Patch>): Manifest {
    map f | f in manifest ::
      if Some(f) in patches && manifest[f].Object? then Spread(manifest[f], patches[Some(f)]) else manifest[f]
  }

  /** Applying one more patch to a merge that has not used its name extends the merge by that patch. */
  lemma MergeStepExtends(manifest: Manifest, patches: map<Name, Patch>, n: Name, patch: Patch)
    requires n !in patches
    ensures MergeStep(Merged(manifest, patches), n, patch) == Merged(manifest, patches[n := patch])
  {
    var before := Merged(manifest, patches);
    if Patchable(before, n) {
      assert manifest[n.value] == before[n.value];
    }
  }

  /**
   * The reduce over `Object.entries` of the patches, which visits each name
   * once; the loop takes them in any order and ends with the entry-by-entry
   * merge, so the order of the entries does not matter.
   */
  method UpdateManifest(manifest: Manifest, patches: map<Name, Patch>) returns (contents: Manifest)
    ensures contents == Merged(manifest, patches)
  {
    contents := manifest;
    var done: map<Name, Patch> := map[];
    MergeNothing(manifest);
    var todo := patches.Keys;
    while todo != {}
      invariant todo !! done.Keys && todo + done.Keys == patches.Keys
      invariant forall n :: n in done ==> done[n] == patches[n]
      invariant contents == Merged(manifest, done)
      decreases todo
    {
      var n :| n in todo;
      MergeStepExtends(manifest, done, n, patches[n]);
      contents := MergeStep(contents, n, patches[n]);
      done := done[n := patches[n]];
      todo := todo - {n};
    }
    SameMap(done, patches);
  }

  lemma MergeNothing(manifest: Manifest)
    ensures Merged(manifest, map[]) == manifest
  {
  }

  lemma SameMap<K, V>(a: map<K, V>, b: map<K, V>)
    requires a.Keys == b.Keys && forall k :: k in a ==> a[k] == b[k]
    ensures a == b
  {
  }

  /**
   * The merge keeps every file name; it changes only object entries whose
   * name has a patch, and in those it sets the patched property and keeps
   * every other property.
   */
  lemma MergedEntries(manifest: Manifest, patches: map<Name, Patch>, f: string)
    requires f in manifest
    ensures Merged(manifest, patches).Keys == manifest.Keys
    ensures !Patchable(manifest, Some(f)) || Some(f) !in patches ==> Merged(manifest, patches)[f] == manifest[f]
    ensures Patchable(manifest, Some(f)) && Some(f) in patches ==>
      var patch := patches[Some(f)];
      var fields := Merged(manifest, patches)[f].fields;
      && fields[PatchedField(patch)] == PatchedValue(patch)
      && forall g :: g in manifest[f].fields && g != PatchedField(patch) ==> g in fields && fields[g] == manifest[f].fields[g]
  {
  }

  /**
   * Fonts win over stylesheets: a manifest entry named by a font gets the
   * font's `fontFace` and no new `fonts` list; one named only by a
   * stylesheet gets that stylesheet's `fonts` list.
   */
  lemma FontsWinOverStylesheets(info: FontInfo, manifest: Manifest, f: string)
    requires Patchable(manifest, Some(f))
    ensures var fields := Merged(manifest, Patches(info))[f].fields;
      Some(f) in info.fonts ==>
        && fields["fontFace"] == FontFaceValue(info.fonts[Some(f)])
        && ("fonts" in fields <==> "fonts" in manifest[f].fields)
        && ("fonts" in fields ==> fields["fonts"] == manifest[f].fields["fonts"])
    ensures var fields := Merged(manifest, Patches(info))[f].fields;
      Some(f) in info.stylesheets && Some(f) !in info.fonts ==>
        fields["fonts"] == FontsValue(info.stylesheets[Some(f)])
    ensures Some(f) !in info.stylesheets && Some(f) !in info.fonts ==>
      Merged(manifest, Patches(info))[f] == manifest[f]
  {
    MergedEntries(manifest, Patches(info), f);
  }

  /** What `writeBundle` does with the manifest. */
  datatype Outcome = Skip | Write(manifest: Manifest)

  /**
   * `writeBundle`, from the parsed manifest to the manifest written back:
   * nothing is written when no font was found, even if stylesheets were.
   */
  function WriteBundle(info: FontInfo, manifest: Manifest): (out: Outcome)
    ensures out.Skip? <==> |info.fonts| == 0
    ensures out.Write? ==> out.manifest.Keys == manifest.Keys
  {
    if |info.fonts| == 0 then Skip else Write(Merged(manifest, Patches(info)))
  }

  /**
   * After a write, every font's own manifest entry (when it is an object)
   * carries that font's `fontFace`.
   */
  lemma WrittenFontsCarryTheirFace(info: FontInfo, manifest: Manifest, f: string)
    requires Some(f) in info.fonts && Patchable(manifest, Some(f))
    ensures WriteBundle(info, manifest).Write?
    ensures WriteBundle(info, manifest).manifest[f].fields["fontFace"] == FontFaceValue(info.fonts[Some(f)])
  {
    assert Some(f) in info.fonts.Keys;
    FontsWinOverStylesheets(info, manifest, f);
  }
}

=== FILE: objects.dfy ===
/**
 * A JavaScript object as the list of its own entries in property order.
 * Spreading an object into a new literal and assigning one computed key keeps an
 * existing key at its first position with the new value, and puts a new key
 * last.
 */
module Objects {
  import opened Wrappers
  import opened Seqs

  /** No key occurs twice, as in every object. */
  predicate DistinctKeys<K(==), V>(o: seq<(K, V)>) {
    forall i, j :: 0 <= i < j < |o| ==> o[i].0 != o[j].0
  }

  /** Some entry of `o` has key `k`. */
  predicate HasKey<K(==), V>(o: seq<(K, V)>, k: K) {
    exists i :: 0 <= i < |o| && o[i].0 == k
  }

  /** A copy of the object with key `k` set to `v`. */
  function Put<K(==), V>(o: seq<(K, V)>, k: K, v: V): (r: seq<(K, V)>)
    ensures HasKey(o, k) ==> |r| == |o|
    ensures !HasKey(o, k) ==> r == o + [(k, v)]
    ensures forall i :: 0 <= i < |o| && o[i].0 != k ==> r[i] == o[i]
    ensures forall i :: 0 <= i < |r| ==> r[i] == (k, v) || (i < |o| && r[i] == o[i])
    ensures DistinctKeys(o) ==> forall i :: 0 <= i < |o| && o[i].0 == k ==> r[i] == (k, v)
    ensures DistinctKeys(o) ==> DistinctKeys(r)
  {
    match FirstIndex(o, (e: (K, V)) => e.0 == k)
    case Some(i) => o[i := (k, v)]
    case None => o + [(k, v)]
  }

  /** Setting the pairs' keys one by one, from an empty object. */
  function Assign<K(==), V>(entries: seq<(K, V)>): (o: seq<(K, V)>)
    ensures DistinctKeys(o)
  {
    if entries == [] then []
    else
      var n := |entries| - 1;
      Put(Assign(entries[..n]), entries[n].0, entries[n].1)
  }

  /** Replacing the entry of a key in a duplicate-free object assigns that key. */
  lemma {:induction false} UpdateFromEntries<K, V>(o: seq<(K, V)>, i: nat, v: V)
    requires DistinctKeys(o) && i < |o|
    ensures FromEntries(o[i := (o[i].0, v)]) == FromEntries(o)[o[i].0 := v]
    decreases |o|
  {
    var n := |o| - 1;
    var u := o[i := (o[i].0, v)];
    if i < n {
      assert u[..n] == o[..n][i := (o[i].0, v)];
      UpdateFromEntries(o[..n], i, v);
      assert o[n].0 != o[i].0;
    } else {
      assert u[..n] == o[..n];
    }
  }

  lemma PutFromEntries<K, V>(o: seq<(K, V)>, k: K, v: V)
    requires DistinctKeys(o)
    ensures FromEntries(Put(o, k, v)) == FromEntries(o)[k := v]
  {
    match FirstIndex(o, (e: (K, V)) => e.0 == k)
    case Some(i) =>
      UpdateFromEntries(o, i, v);
    case None =>
      assert (o + [(k, v)])[..|o|] == o;
  }

  /** The reduce yields the same key/value map as `Object.fromEntries`: every key, with its last value. */
  lemma {:induction false} AssignFromEntries<K, V>(entries: seq<(K, V)>)
    ensures FromEntries(Assign(entries)) == FromEntries(entries)
    decreases |entries|
  {
    if entries != [] {
      var n := |entries| - 1;
      AssignFromEntries(entries[..n]);
      PutFromEntries(Assign(entries[..n]), entries[n].0, entries[n].1);
    }
  }

  /** Each entry of the result is one of the assigned pairs. */
  lemma {:induction false} AssignEntriesAreAssigned<K, V>(entries: seq<(K, V)>, p: nat)
    requires p < |Assign(entries)|
    ensures exists j :: 0 <= j < |entries| && Assign(entries)[p] == entries[j]
    decreases |entries|
  {
    var n := |entries| - 1;
    var o := Assign(entries[..n]);
    if Assign(entries)[p] != entries[n] {
      AssignEntriesAreAssigned(entries[..n], p);
      var j :| 0 <= j < n && o[p] == entries[..n][j];
      assert Assign(entries)[p] == entries[j];
    }
  }

  /** Without repeated keys the reduce rebuilds the entries unchanged, in order. */
  lemma {:induction false} AssignDistinct<K, V>(entries: seq<(K, V)>)
    requires DistinctKeys(entries)
    ensures Assign(entries) == entries
    decreases |entries|
  {
    if entries != [] {
      var n := |entries| - 1;
      assert DistinctKeys(entries[..n]);
      AssignDistinct(entries[..n]);
      assert !HasKey(entries[..n], entries[n].0);
      assert entries[..n] + [entries[n]] == entries;
    }
  }

  /** In a duplicate-free object every entry is found under its key. */
  lemma DistinctLookup<K, V>(o: seq<(K, V)>, p: nat)
    requires DistinctKeys(o) && p < |o|
    ensures o[p].0 in FromEntries(o) && FromEntries(o)[o[p].0] == o[p].1
  {
    FromEntriesLastWins(o, p);
  }
}

=== FILE: relation.dfy ===
/**
 * `reverseRelation`: turning an object that maps each key to a list of
 * values into one that maps each value to the keys that list it.
 */
module Relation {
  /** Each value of one key's list, paired with that key. */
  function Pair<K, V>(key: K, values: seq<V>): (pairs: seq<(V, K)>)
    ensures |pairs| == |values|
    ensures forall j :: 0 <= j < |values| ==> pairs[j] == (values[j], key)
  {
    seq(|values|, j requires 0 <= j < |values| => (values[j], key))
  }

  /** The value/key pairs of every entry, entry by entry. */
  function Pairs<K, V>(obj: seq<(K, seq<V>)>): seq<(V, K)> {
    if obj == [] then [] else Pair(obj[0].0, obj[0].1) + Pairs(obj[1..])
  }

  /** The reduce: pair by pair, the key is appended to its value's list, which starts empty. */
  function Gather<K, V(==)>(pairs: seq<(V, K)>): map<V, seq<K>> {
    if pairs == [] then map[]
    else
      var n := |pairs| - 1;
      var acc := Gather(pairs[..n]);
      var v := pairs[n].0;
      acc[v := (if v in acc then acc[v] else []) + [pairs[n].1]]
  }

  /**
   * `reverseRelation`: it maps exactly the values that some list holds, each
   * to the keys that list it, in entry order and once per listing.
   */
  function ReverseRelation<K, V(==,!new)>(obj: seq<(K, seq<V>)>): (r: map<V, seq<K>>)
    ensures forall v :: v in r <==> Holds(obj, v)
    ensures forall v :: v in r ==> r[v] == KeysListing(obj, v)
  {
    GatherListing(obj);
    Gather(Pairs(obj))
  }

  /** The second components of the pairs whose first component is `v`, in order. */
  function Partners<K, V(==)>(pairs: seq<(V, K)>, v: V): seq<K> {
    if pairs == [] then [] else (if pairs[0].0 == v then [pairs[0].1] else []) + Partners(pairs[1..], v)
  }

  /** Some key's list holds `v`. */
  predicate Holds<K, V(==)>(obj: seq<(K, seq<V>)>, v: V) {
    exists i :: 0 <= i < |obj| && v in obj[i].1
  }

  /** How many times `v` occurs in `values`. */
  function Count<V(==)>(values: seq<V>, v: V): nat {
    if values == [] then 0 else (if values[0] == v then 1 else 0) + Count(values[1..], v)
  }

  /** `n` copies of `key`. */
  function Repeat<K>(key: K, n: nat): (r: seq<K>)
    ensures |r| == n && forall j :: 0 <= j < n ==> r[j] == key
  {
    seq(n, j => key)
  }

  /**
   * Reference definition: the keys whose lists hold `v`, in entry order, a
   * key once for every time its list holds `v`.
   */
  function KeysListing<K, V(==)>(obj: seq<(K, seq<V>)>, v: V): seq<K> {
    if obj == [] then [] else Repeat(obj[0].0, Count(obj[0].1, v)) + KeysListing(obj[1..], v)
  }

  lemma {:induction false} PartnersAppend<K, V>(a: seq<(V, K)>, b: seq<(V, K)>, v: V)
    ensures Partners(a + b, v) == Partners(a, v) + Partners(b, v)
    decreases |a|
  {
    if a == [] {
      assert a + b == b;
    } else {
      var head := if a[0].0 == v then [a[0].1] else [];
      assert (a + b)[0] == a[0];
      assert (a + b)[1..] == a[1..] + b;
      PartnersAppend(a[1..], b, v);
      assert Partners(a + b, v) == head + (Partners(a[1..], v) + Partners(b, v));
      assert Partners(a, v) == head + Partners(a[1..], v);
    }
  }

  /** The reduce gathers, for each value, exactly its partners in pair order. */
  lemma {:induction false} GatherPartners<K, V>(pairs: seq<(V, K)>, v: V)
    ensures v in Gather(pairs) <==> Partners(pairs, v) != []
    ensures v in Gather(pairs) ==> Gather(pairs)[v] == Partners(pairs, v)
    decreases |pairs|
  {
    if pairs != [] {
      var n := |pairs| - 1;
      GatherPartners(pairs[..n], v);
      assert pairs == pairs[..n] + [pairs[n]];
      PartnersAppend(pairs[..n], [pairs[n]], v);
    }
  }

  /** One key's pairs partner `v` once per occurrence of `v` in its list. */
  lemma {:induction false} PairPartners<K, V>(key: K, values: seq<V>, v: V)
    ensures Partners(Pair(key, values), v) == Repeat(key, Count(values, v))
    decreases |values|
  {
    if values != [] {
      PairPartners(key, values[1..], v);
      assert Pair(key, values) == [(values[0], key)] + Pair(key, values[1..]);
      PartnersAppend([(values[0], key)], Pair(key, values[1..]), v);
      var rest := Repeat(key, Count(values[1..], v));
      if values[0] == v {
        assert Repeat(key, Count(values, v)) == [key] + rest;
      } else {
        assert Repeat(key, Count(values, v)) == rest;
      }
    }
  }

  lemma {:induction false} PairsPartners<K, V>(obj: seq<(K, seq<V>)>, v: V)
    ensures Partners(Pairs(obj), v) == KeysListing(obj, v)
    decreases |obj|
  {
    if obj != [] {
      PairsPartners(obj[1..], v);
      PartnersAppend(Pair(obj[0].0, obj[0].1), Pairs(obj[1..]), v);
      PairPartners(obj[0].0, obj[0].1, v);
    }
  }

  /** `v` occurs in one of the lists exactly when some key lists it at least once. */
  lemma {:induction false} KeysListingEmpty<K, V>(obj: seq<(K, seq<V>)>, v: V)
    ensures KeysListing(obj, v) != [] <==> exists i :: 0 <= i < |obj| && v in obj[i].1
    decreases |obj|
  {
    if obj != [] {
      KeysListingEmpty(obj[1..], v);
      CountPositive(obj[0].1, v);
      if exists i :: 1 <= i < |obj| && v in obj[i].1 {
        var i :| 1 <= i < |obj| && v in obj[i].1;
        assert v in obj[1..][i - 1].1;
      }
      if exists i :: 0 <= i < |obj[1..]| && v in obj[1..][i].1 {
        var i :| 0 <= i < |obj[1..]| && v in obj[1..][i].1;
        assert v in obj[i + 1].1;
      }
    }
  }

  lemma {:induction false} CountPositive<V>(values: seq<V>, v: V)
    ensures Count(values, v) > 0 <==> v in values
    decreases |values|
  {
    if values != [] {
      CountPositive(values[1..], v);
      assert values == [values[0]] + values[1..];
    }
  }

  /** The gathered pairs of every entry hold, for each value, the reference listing of its keys. */
  lemma GatherListing<K, V(!new)>(obj: seq<(K, seq<V>)>)
    ensures forall v :: v in Gather(Pairs(obj)) <==> Holds(obj, v)
    ensures forall v :: v in Gather(Pairs(obj)) ==> Gather(Pairs(obj))[v] == KeysListing(obj, v)
  {
    forall v
      ensures v in Gather(Pairs(obj)) <==> Holds(obj, v)
      ensures v in Gather(Pairs(obj)) ==> Gather(Pairs(obj))[v] == KeysListing(obj, v)
    {
      GatherListingAt(obj, v);
    }
  }

  lemma GatherListingAt<K, V>(obj: seq<(K, seq<V>)>, v: V)
    ensures v in Gather(Pairs(obj)) <==> Holds(obj, v)
    ensures v in Gather(Pairs(obj)) ==> Gather(Pairs(obj))[v] == KeysListing(obj, v)
  {
    GatherPartners(Pairs(obj), v);
    PairsPartners(obj, v);
    KeysListingEmpty(obj, v);
  }
}

=== FILE: seqs.dfy ===
/**
 * Searching a sequence front to back, as `Array.prototype.find` does, and
 * building a map from key/value pairs where a later pair overwrites an
 * earlier one, as `Object.fromEntries` and repeated property assignment do;
 * filtering (`filter`) and flattening (`flat`).
 */
module Seqs {
  import opened Wrappers

  /** `i` is the position of the first element of `s` that satisfies `p`. */
  predicate IsFirst<T>(s: seq<T>, p: T -> bool, i: int) {
    0 <= i < |s| && p(s[i]) && forall j :: 0 <= j < i ==> !p(s[j])
  }

  /** The position of the first element satisfying `p`, if any. */
  function FirstIndex<T>(s: seq<T>, p: T -> bool): (r: Option<nat>)
    ensures r.Some? ==> IsFirst(s, p, r.value)
    ensures r.None? <==> forall j :: 0 <= j < |s| ==> !p(s[j])
  {
    if s == [] then None
    else if p(s[0]) then Some(0)
    else match FirstIndex(s[1..], p)
      case None => None
      case Some(i) => Some(i + 1)
  }

  /** A position of an element of `s`. */
  lemma IndexOf<T>(s: seq<T>, x: T) returns (j: nat)
    requires x in s
    ensures j < |s| && s[j] == x
  {
    j :| 0 <= j < |s| && s[j] == x;
  }

  /** No pair after position `i` has the key of pair `i`. */
  predicate IsLastKey<K(==), V>(entries: seq<(K, V)>, i: int) {
    0 <= i < |entries| && forall j :: i < j < |entries| ==> entries[j].0 != entries[i].0
  }

  /** The map built by assigning the pairs in order. */
  function FromEntries<K(==), V>(entries: seq<(K, V)>): map<K, V> {
    if entries == [] then map[]
    else FromEntries(entries[..|entries| - 1])[entries[|entries| - 1].0 := entries[|entries| - 1].1]
  }

  /** The keys of `FromEntries` are exactly the keys of the pairs. */
  lemma {:induction false} FromEntriesKeys<K, V>(entries: seq<(K, V)>, k: K)
    ensures k in FromEntries(entries) <==> exists i :: 0 <= i < |entries| && entries[i].0 == k
    decreases |entries|
  {
    if entries != [] {
      var n := |entries| - 1;
      FromEntriesKeys(entries[..n], k);
      if k != entries[n].0 && k in FromEntries(entries) {
        var i :| 0 <= i < n && entries[..n][i].0 == k;
        assert entries[i].0 == k;
      }
      if k != entries[n].0 && exists i :: 0 <= i < |entries| && entries[i].0 == k {
        var i :| 0 <= i < |entries| && entries[i].0 == k;
        assert entries[..n][i].0 == k;
      }
    }
  }

  /** A key that occurs has a last occurrence. */
  lemma LastKeyExists<K, V>(entries: seq<(K, V)>, k: K) returns (i: nat)
    requires exists j :: 0 <= j < |entries| && entries[j].0 == k
    ensures IsLastKey(entries, i) && entries[i].0 == k
  {
    i :| 0 <= i < |entries| && entries[i].0 == k;
    while exists j :: i < j < |entries| && entries[j].0 == k
      invariant 0 <= i < |entries| && entries[i].0 == k
      decreases |entries| - i
    {
      var j :| i < j < |entries| && entries[j].0 == k;
      i := j;
    }
  }

  /** Each key maps to the value of its last pair. */
  lemma {:induction false} FromEntriesLastWins<K, V>(entries: seq<(K, V)>, i: int)
    requires IsLastKey(entries, i)
    ensures entries[i].0 in FromEntries(entries) && FromEntries(entries)[entries[i].0] == entries[i].1
    decreases |entries|
  {
    var n := |entries| - 1;
    if i < n {
      assert entries[..n][i] == entries[i];
      assert IsLastKey(entries[..n], i);
      FromEntriesLastWins(entries[..n], i);
    }
  }

  // ---------------------------------------------------------------------------
  // Filtering and flattening

  /** The elements `x` of `xs` with `p(x) == want`, in order. */
  function Select<T>(xs: seq<T>, p: T -> bool, want: bool): (r: seq<T>)
    ensures |r| <= |xs|
  {
    if xs == [] then [] else (if p(xs[0]) == want then [xs[0]] else []) + Select(xs[1..], p, want)
  }

  lemma {:induction false} SelectAppend<T>(a: seq<T>, b: seq<T>, p: T -> bool, want: bool)
    ensures Select(a + b, p, want) == Select(a, p, want) + Select(b, p, want)
    decreases |a|
  {
    if a == [] {
      assert a + b == b;
    } else {
      var head := if p(a[0]) == want then [a[0]] else [];
      assert (a + b)[0] == a[0];
      assert (a + b)[1..] == a[1..] + b;
      SelectAppend(a[1..], b, p, want);
      assert Select(a + b, p, want) == head + (Select(a[1..], p, want) + Select(b, p, want));
      assert Select(a, p, want) == head + Select(a[1..], p, want);
    }
  }

  /** The groups laid end to end. */
  function Concat<T>(groups: seq<seq<T>>): seq<T> {
    if groups == [] then [] else groups[0] + Concat(groups[1..])
  }

  /** Where group `i` starts in `Concat(groups)`: the total length of the groups before it. */
  function Offset<T>(groups: seq<seq<T>>, i: nat): nat
    requires i <= |groups|
  {
    if i == 0 then 0 else |groups[0]| + Offset(groups[1..], i - 1)
  }

  /** The concatenation is as long as all groups together. */
  lemma {:induction false} ConcatLength<T>(groups: seq<seq<T>>)
    ensures |Concat(groups)| == Offset(groups, |groups|)
    decreases |groups|
  {
    if groups != [] {
      ConcatLength(groups[1..]);
    }
  }

  /** Group `i` is the slice of the concatenation that starts at `Offset(groups, i)`. */
  lemma {:induction false} ConcatAt<T>(groups: seq<seq<T>>, i: nat)
    requires i < |groups|
    ensures Offset(groups, i) + |groups[i]| <= |Concat(groups)|
    ensures Concat(groups)[Offset(groups, i)..Offset(groups, i) + |groups[i]|] == groups[i]
    decreases i
  {
    var rest := groups[1..];
    assert Concat(groups) == groups[0] + Concat(rest);
    if i == 0 {
      assert Concat(groups)[..|groups[0]|] == groups[0];
    } else {
      assert groups[i] == rest[i - 1];
      ConcatAt(rest, i - 1);
      var o := Offset(rest, i - 1);
      assert Concat(groups)[|groups[0]| + o..|groups[0]| + o + |groups[i]|] == Concat(rest)[o..o + |groups[i]|];
    }
  }

  /**
   * `xs` is the groups laid end to end, in order, none dropped or repeated:
   * it is as long as all groups together, and group `i` is its slice from
   * `Offset(groups, i)`.
   */
  ghost predicate LaidEndToEnd<T>(xs: seq<T>, groups: seq<seq<T>>) {
    && |xs| == Offset(groups, |groups|)
    && forall i :: 0 <= i < |groups| ==>
         Offset(groups, i) + |groups[i]| <= |xs| && xs[Offset(groups, i)..Offset(groups, i) + |groups[i]|] == groups[i]
  }

  /** The concatenation lays the groups end to end. */
  lemma ConcatPositions<T>(groups: seq<seq<T>>)
    ensures LaidEndToEnd(Concat(groups), groups)
  {
    ConcatLength(groups);
    forall i | 0 <= i < |groups|
      ensures Offset(groups, i) + |groups[i]| <= |Concat(groups)|
      ensures Concat(groups)[Offset(groups, i)..Offset(groups, i) + |groups[i]|] == groups[i]
    {
      ConcatAt(groups, i);
    }
  }

  /** Only the concatenation lays the groups end to end: the layout fixes every element and the order. */
  lemma {:induction false} LaidEndToEndIsConcat<T>(xs: seq<T>, groups: seq<seq<T>>)
    requires LaidEndToEnd(xs, groups)
    ensures xs == Concat(groups)
    decreases |groups|
  {
    if groups != [] {
      var rest, n := groups[1..], |groups[0]|;
      assert xs[..n] == groups[0] by {
        assert Offset(groups, 0) == 0;
      }
      forall i | 0 <= i < |rest|
        ensures Offset(rest, i) + |rest[i]| <= |xs[n..]|
        ensures xs[n..][Offset(rest, i)..Offset(rest, i) + |rest[i]|] == rest[i]
      {
        assert groups[i + 1] == rest[i];
        assert Offset(groups, i + 1) == n + Offset(rest, i);
      }
      assert Offset(groups, |groups|) == n + Offset(rest, |rest|);
      LaidEndToEndIsConcat(xs[n..], rest);
      assert xs == xs[..n] + xs[n..];
    }
  }

  /** `Select` keeps exactly the elements on the wanted side of `p`. */
  lemma {:induction false} SelectMembers<T>(xs: seq<T>, p: T -> bool, want: bool, x: T)
    ensures x in Select(xs, p, want) <==> x in xs && p(x) == want
    decreases |xs|
  {
    if xs != [] {
      SelectMembers(xs[1..], p, want, x);
      assert xs == [xs[0]] + xs[1..];
    }
  }

  /** An element of the concatenation lies in one of the groups, and every element of every group is in it. */
  lemma {:induction false} ConcatMembers<T>(groups: seq<seq<T>>, x: T)
    ensures x in Concat(groups) <==> exists i :: 0 <= i < |groups| && x in groups[i]
    decreases |groups|
  {
    if groups != [] {
      ConcatMembers(groups[1..], x);
      if x in Concat(groups[1..]) {
        var i :| 0 <= i < |groups[1..]| && x in groups[1..][i];
        assert x in groups[i + 1];
      }
      if exists i :: 0 <= i < |groups| && x in groups[i] {
        var i :| 0 <= i < |groups| && x in groups[i];
        if i > 0 {
          assert x in groups[1..][i - 1];
        }
      }
    }
  }
}

=== FILE: strings.dfy ===
/** Character and string helpers shared by the model. */
module Strings {
  import opened Wrappers
  import opened Seqs

  /** ASCII lower-casing of one character. */
  function LowerChar(c: char): char {
    if 'A' <= c <= 'Z' then (c as int - 'A' as int + 'a' as int) as char else c
  }

  /** `String.prototype.toLowerCase`, for ASCII letters. */
  function Lower(s: string): (r: string)
    ensures |r| == |s|
    ensures forall i :: 0 <= i < |s| ==> r[i] == LowerChar(s[i])
  {
    seq(|s|, i requires 0 <= i < |s| => LowerChar(s[i]))
  }

  /** The lower-cased string has no upper-case ASCII letter. */
  lemma LowerHasNoUpperCase(s: string)
    ensures forall i :: 0 <= i < |Lower(s)| ==> !('A' <= Lower(s)[i] <= 'Z')
  {
  }

  /** Lower-casing works character by character, so it distributes over concatenation. */
  lemma LowerAppend(a: string, b: string)
    ensures Lower(a + b) == Lower(a) + Lower(b)
  {
  }

  /** A string with no upper-case ASCII letter is its own lower-casing. */
  lemma LowerOfNoUpperCase(s: string)
    requires forall i :: 0 <= i < |s| ==> !('A' <= s[i] <= 'Z')
    ensures Lower(s) == s
  {
  }

  /** Lower-casing keeps a leading dot. */
  lemma LowerDotPrefix(x: string)
    ensures Lower("." + x) == "." + Lower(x)
  {
    var s, t := Lower("." + x), "." + Lower(x);
    assert |s| == |t|;
    forall i | 0 <= i < |s| ensures s[i] == t[i] {
      if i > 0 {
        assert ("." + x)[i] == x[i - 1];
      }
    }
  }

  /** Lower-casing a dotted name lower-cases its stem and its extension and keeps the dot. */
  lemma LowerDotted(stem: string, ext: string)
    ensures Lower(stem + "." + ext) == Lower(stem) + "." + Lower(ext)
  {
    LowerAppend(stem + ".", ext);
    LowerAppend(stem, ".");
    assert Lower(".") == ".";
  }

  /** `String.prototype.endsWith`. */
  predicate EndsWith(s: string, suffix: string) {
    |suffix| <= |s| && s[|s| - |suffix|..] == suffix
  }

  /** `s` ends with `suffix` exactly when some prefix followed by `suffix` makes up `s`. */
  lemma EndsWithIff(s: string, suffix: string)
    ensures EndsWith(s, suffix) <==> exists p :: s == p + suffix
  {
    if EndsWith(s, suffix) {
      assert s == s[..|s| - |suffix|] + suffix;
    }
    if exists p :: s == p + suffix {
      var p :| s == p + suffix;
      assert s[|p|..] == suffix;
    }
  }

  /** The position of the last occurrence of `c` in `s`, if any. */
  function LastIndexOf(s: string, c: char): (r: Option<nat>)
    ensures r.Some? ==> r.value < |s| && s[r.value] == c
    ensures r.Some? ==> forall j :: r.value < j < |s| ==> s[j] != c
    ensures r.None? <==> forall j :: 0 <= j < |s| ==> s[j] != c
  {
    if |s| == 0 then None
    else if s[|s| - 1] == c then Some(|s| - 1)
    else LastIndexOf(s[..|s| - 1], c)
  }

  /**
   * Removing every character of `cs` with a global regular-expression
   * replace: what is left is exactly `s` filtered of those characters.
   */
  function RemoveChars(s: string, cs: set<char>): (r: string)
    ensures r == Select(s, c => c in cs, false)
    ensures forall i :: 0 <= i < |r| ==> r[i] !in cs
    ensures (forall i :: 0 <= i < |s| ==> s[i] !in cs) ==> r == s
    ensures forall i :: 0 <= i < |s| && s[i] !in cs ==> s[i] in r
  {
    if |s| == 0 then ""
    else (if s[0] in cs then "" else [s[0]]) + RemoveChars(s[1..], cs)
  }
}

=== FILE: wrappers.dfy ===
/** Optional values. `None` stands for JavaScript's `undefined` and `null`. */
module Wrappers {

  datatype Option<+T> = None | Some(value: T)
}
